=== FILE: README.md ===
# CITC frontend: projection and partition rules in Dafny

This project models the client-side logic of the CITC club website, a React
single-page application. The logic sits inside otherwise presentational
components. Each rule becomes a pure Dafny function over immutable
datatypes, and its promises are proved:

- **Countdown** (`countdown.dfy`, `ai_registration.dfy`). A tick splits the
  milliseconds left before the competition into days, hours, minutes and
  seconds. Once no time is left it raises a terminal "expired" flag. Each
  unit is shown as a zero-padded string of digits, and a digit is marked as
  changed when it differs from the previous value's digit at the same
  place.
- **Events listing** (`events_page.dfy`). The events are filtered into
  running, upcoming and past lists, and "active" is running followed by
  upcoming. The page also has a meta description, a preview image and an
  ItemList schema numbered from 1.
- **Event page** (`event_details.dfy`). The event is looked up by its id,
  with a not-found case. The registration button is gated, and its link is
  classified as an internal route or an external address. The page also
  has a 160-character description, a canonical URL and keywords.
- **Event card** (`event_card.dfy`): the running test, the badge, the
  detail route and the registration button.
- **Team page** (`team_page.dfy`). Members are grouped by team id, in the
  order of the teams and then of the members. Teams with no members are
  dropped.
- **Member card** (`member_card.dfy`): the subtitle precedence, the ordered
  row of contact icons and the photo placeholder.
- **Search-engine records** (`seo_data.dfy`): `getPageSEO`,
  `getPersonSchema`, `getEventSchema` and `getMetaTags`.

The helper modules are:

- `values.dfy`: optional JSON fields and JavaScript truthiness.
- `text.dfy`: `toString`, `padStart`, `includes`, `startsWith`, a
  first-occurrence `replace`, `substring` and `join`.
- `seqs.dfy`: an order-preserving `filter` and the facts about it.
- `types.dfy`: the content records.

The outside world enters as parameters:

- A fetch is replaced by its outcome: `Load<T>` for the listing pages, and
  `Option<EventData>` for the event page.
- `window.location.href` is an `Option<string>`.
- The clock is the sequence of readings at which `updateCountdown` runs.
  While time is left, each tick stores a fresh countdown. That re-runs the
  effect, so the next reading is taken at once and the 1000 ms interval only
  drives the ticks after expiry.

`src/pages/TeamPage.tsx` neither sorts members nor groups them by rank:
each section keeps the members in document order.

## Model

| member | source | states |
|---|---|---|
| Countdown.SplitDigits | src/components/Countdown.tsx:18-19 | The digits of a value: a single digit gets a leading '0', a larger value shows its decimal digits unpadded; always at least two digits |
| Countdown.SplitDigitsTwoWide | src/components/Countdown.tsx:18-19 | A value of at most 99 shows exactly two digits, the first being '0' exactly when the value is below 10 |
| Countdown.SplitDigitsUntruncated | src/components/Countdown.tsx:18-19 | A value of 10 or more is shown with all of its decimal digits, as many as the value has (bounded by powers of ten) |
| Countdown.SplitDigitsRoundTrip | src/components/Countdown.tsx:18-19 | Reading the shown digits back as a decimal number gives the value |
| Countdown.SplitDigitsInjective | src/components/Countdown.tsx:18-19 | Different values never show the same digits |
| Countdown.Changed | src/components/Countdown.tsx:42-43 | One mark per current digit; a digit is unmarked exactly when the previous digits hold the same digit at the same place |
| Countdown.NothingChangedIff | src/components/Countdown.tsx:35-43 | No digit is marked changed exactly when the current digits are a prefix of the previous ones; a place the previous digits do not reach counts as changed |
| Countdown.UnitUnchangedIff | src/components/Countdown.tsx:32-43 | For two-digit values, no digit animates exactly when the unit's value is unchanged |
| Countdown.Units | src/components/Countdown.tsx:22 | The units come in record order: days, hours, minutes, seconds, each with its value |
| Countdown.Display | src/components/Countdown.tsx:21-43 | Each unit shows its name, the padded digits of its value, and the change marks against the previous value of the same unit |
| Countdown.DisplayOfSameValueIsStill | src/components/Countdown.tsx:43 | A countdown shown against itself marks no digit as changed |
| AIRegistration.Decompose | src/pages/AIRegistrationPage.tsx:54-59 | For time left, hours < 24, minutes < 60 and seconds < 60, and the units add back up to the whole seconds left |
| AIRegistration.DecomposeInverts | src/pages/AIRegistrationPage.tsx:54-59 | Every in-range duration is what any distance within its last second decomposes into, so only milliseconds are lost |
| AIRegistration.DecomposeExample | src/pages/AIRegistrationPage.tsx:55-58 | 90,061,000 ms gives one day, one hour, one minute and one second |
| AIRegistration.DecomposeIsFloorFormula | src/pages/AIRegistrationPage.tsx:55-58 | With exact arithmetic, `Math.floor` of the quotient and of the truncated `%` remainder give the same units as the integer decomposition |
| AIRegistration.Tick | src/pages/AIRegistrationPage.tsx:45-63 | With no time left the tick sets expired and leaves both countdowns alone; otherwise the previous countdown becomes the old current one; expired is never cleared |
| AIRegistration.TickShowsTimeLeft | src/pages/AIRegistrationPage.tsx:47-62 | A tick with time left shows in-range units adding up to the seconds left |
| AIRegistration.Run | src/pages/AIRegistrationPage.tsx:45-67 | The ticks are applied in the order of the clock readings: no readings leave the state alone, and the last reading's tick is applied to the state the earlier ones reached |
| AIRegistration.ExpiredIsTerminal | src/pages/AIRegistrationPage.tsx:49-51 | Once expired, any further sequence of clock readings keeps the page expired |
| AIRegistration.ExpiresOnceTargetReached | src/pages/AIRegistrationPage.tsx:45-52 | A single reading at or after the target date expires the page for good, whatever comes before or after it |
| AIRegistration.RunStaysInRange | src/pages/AIRegistrationPage.tsx:15-62 | Every state reached from in-range countdowns keeps both countdowns in range |
| AIRegistration.View | src/pages/AIRegistrationPage.tsx:97-123 | The countdown is shown exactly when not expired, against the previous countdown, and both the heading and the lead paragraph switch on the flag |
| AIRegistration.CountdownNeverReturns | src/pages/AIRegistrationPage.tsx:97-123 | After expiry no later tick brings the countdown or the waiting heading back |
| EventCard.IsRunning | src/components/EventCard.tsx:12 | Comparing the status string to "running" is the same as the status being running |
| EventCard.RegistrationOpen | src/components/EventCard.tsx:70 | Registration is open exactly for a running event with a non-empty link |
| EventCard.Render | src/components/EventCard.tsx:12-81 | The card links to "/events/" + id, shows the tags in source order, badges running events "Register Now" and others by status, and has a button, with the link verbatim, exactly when registration is open |
| EventCard.BadgeIdentifiesRunning | src/components/EventCard.tsx:27-31 | The badge reads "Register Now" if and only if the event is running, and the raw status otherwise |
| EventCard.DetailRoute | src/components/EventCard.tsx:16 | The route is "/events/" followed by the id, so the id can be read back from its ninth character on |
| EventCard.DetailRouteInjective | src/components/EventCard.tsx:16 | Events with different ids get different detail routes |
| EventsPage.WithStatus | src/pages/EventsPage.tsx:41-50 | A status list holds only events of that status, each from the document, and every such event of the document |
| EventsPage.RunningEvents | src/pages/EventsPage.tsx:41 | An event is in the running list exactly when it is in the document and running |
| EventsPage.UpcomingEvents | src/pages/EventsPage.tsx:42 | An event is in the upcoming list exactly when it is in the document and upcoming |
| EventsPage.PastEvents | src/pages/EventsPage.tsx:50 | An event is in the past list exactly when it is in the document and past |
| EventsPage.ActiveEvents | src/pages/EventsPage.tsx:49 | An event is in the active list exactly when it is in the document and not past |
| EventsPage.WithStatusIsOrderPreservingFilter | src/pages/EventsPage.tsx:41-50 | A status list of a concatenation is the concatenation of the lists, and one event contributes itself exactly when it has the status |
| EventsPage.RunningBeforeUpcoming | src/pages/EventsPage.tsx:49 | In the active list every running event comes before every upcoming one, whatever the document order |
| EventsPage.ActiveAndPastPartition | src/pages/EventsPage.tsx:41-50 | The active and past lists are together a permutation of the document; an event is active exactly when not past, and past exactly when past |
| EventsPage.Description | src/pages/EventsPage.tsx:54-56 | The description names the active count when there are active events, and is the page's default otherwise |
| EventsPage.DescriptionDeterminesCount | src/pages/EventsPage.tsx:54-56 | Different positive counts give different descriptions |
| EventsPage.OgImage | src/pages/EventsPage.tsx:57 | The preview image is the first active event's image, else the page's default image |
| EventsPage.OgImagePrefersRunning | src/pages/EventsPage.tsx:41-57 | When any event is running, the preview image is the first running event's, even if upcoming events come earlier in the document |
| EventsPage.ItemList | src/pages/EventsPage.tsx:73-77 | The ItemList has one entry per event in document order, at position index + 1, with that event's schema |
| EventsPage.Render | src/pages/EventsPage.tsx:24-65 | The spinner is shown exactly while loading and the error view exactly after a failed load; a loaded document is listed |
| EventsPage.LoadedSections | src/pages/EventsPage.tsx:52-156 | Each section is shown exactly when its list is non-empty, with that list; the meta tags use the events page's title and keywords, the active list's description and image, and the browser's address (else the page's URL); the ItemList covers the whole document |
| EventDetails.FindFrom | src/pages/EventDetailsPage.tsx:18 | The lookup returns the first index at or after k with the id, or nothing when no later event has it |
| EventDetails.Find | src/pages/EventDetailsPage.tsx:18-19 | There is no event exactly when no event has the route's id; a found event has the id and is from the document |
| EventDetails.FindIsFirstMatch | src/pages/EventDetailsPage.tsx:18 | When several events share the id, the first one listed is shown |
| EventDetails.Settle | src/pages/EventDetailsPage.tsx:14-26 | Loading ends after both success and failure; success shows the lookup's result, and failure keeps the event already held |
| EventDetails.FirstLoadShowsFoundEvent | src/pages/EventDetailsPage.tsx:14-45 | After the first fetch the held event is the lookup's result, shown exactly when some event has the id and with that event's schema; a failed fetch shows "Event Not Found" |
| EventDetails.FailedRefetchKeepsPreviousEvent | src/pages/EventDetailsPage.tsx:22-25 | A failed fetch after a successful one leaves the earlier event on screen |
| EventDetails.PageDescription | src/pages/EventDetailsPage.tsx:51 | The meta description ends in "...", is at most 163 characters, keeps a short description whole and a long one's first 160 characters |
| EventDetails.PageDescriptionCut | src/pages/EventDetailsPage.tsx:51 | Long descriptions that agree on their first 160 characters give the same meta description |
| EventDetails.PageUrl | src/pages/EventDetailsPage.tsx:52 | The URL is the browser's address when there is one, else the site address followed by the card's detail route |
| EventDetails.TagTextAsWritten | src/pages/EventDetailsPage.tsx:53 | The tag part is the tags joined by ", ", or the text "undefined" when the event has no tag list |
| EventDetails.KeywordsAsWritten | src/pages/EventDetailsPage.tsx:53 | The keywords are the title, ", CITC event, ", the tag part, then ", " and the page's keywords, each piece at its place |
| EventDetails.Keywords | src/pages/EventDetailsPage.tsx:53 | Keywords agree with the source for tagged events; an event without tags reads as one with an empty tag list |
| EventDetails.KeywordsIgnoreMissingTags | src/pages/EventDetailsPage.tsx:53 | A missing and an empty tag list give the same keywords, with nothing between "CITC event" and the page keywords |
| EventDetails.KeywordsAsWrittenSayUndefined | src/pages/EventDetailsPage.tsx:53 | As written, an event without tags gets the word "undefined" right after "CITC event, ", so it differs from one with an empty tag list |
| EventDetails.RegistrationTarget | src/pages/EventDetailsPage.tsx:173-188 | A link is an internal route exactly when it mentions the site's host or starts with "/", with the first occurrence of the site address removed; any other link is used verbatim |
| EventDetails.SiteLinkBecomesRoute | src/pages/EventDetailsPage.tsx:173-175 | A link to the site address followed by a path becomes that path |
| EventDetails.RelativeLinkIsRoute | src/pages/EventDetailsPage.tsx:173-175 | A relative link that does not spell out the site address is the route unchanged |
| EventDetails.ForeignLinkIsExternal | src/pages/EventDetailsPage.tsx:173-188 | A link that neither mentions the site's host nor starts with "/" opens verbatim as an external address |
| EventDetails.Render | src/pages/EventDetailsPage.tsx:28-223 | Spinner while loading, not-found when no event is held, otherwise the title, description, URL, keywords (the source's for tagged events, the corrected ones otherwise) and schema; the button exactly when registration is open, leading to the link's target; the gallery exactly when non-empty |
| EventDetails.RegisterAgreesWithCard | src/pages/EventDetailsPage.tsx:171 | The detail page offers registration exactly when the event's card does |
| TeamPage.TeamMembers | src/pages/TeamPage.tsx:45-47 | A team's list holds only members with its id, each from the document, and every such member |
| TeamPage.TeamMembersIff | src/pages/TeamPage.tsx:45-47 | A member of the document is in a team's list if and only if its team id is that team's |
| TeamPage.Sections | src/pages/TeamPage.tsx:63-65 | Every section is a listed team with exactly its members, and none is empty |
| TeamPage.SectionsFollowTeams | src/pages/TeamPage.tsx:63-65 | The sections' teams are the teams with members, in the order of the teams array |
| TeamPage.MemberShownIff | src/pages/TeamPage.tsx:46-80 | A member appears in some section if and only if some listed team has its team id; a member of an unlisted team appears nowhere |
| TeamPage.SectionMembersInDocumentOrder | src/pages/TeamPage.tsx:45-47 | A section's members keep document order: the list of a split document is the concatenation of the parts' lists, and a single member contributes itself once exactly when it has the team's id |
| TeamPage.Render | src/pages/TeamPage.tsx:28-47 | The spinner is shown exactly while loading and the failure notice exactly after a failed load; a loaded document shows the sections of the teams with members |
| MemberCard.YearText | src/components/MemberCard.tsx:111 | The year text is empty exactly when the college year is missing or 0; otherwise it starts with "Year ", followed by the digits of a positive year |
| MemberCard.Subtitle | src/components/MemberCard.tsx:111 | The title if non-empty, else the department if non-empty, else the year text and the type separated by a space |
| MemberCard.SubtitleNeverEmpty | src/components/MemberCard.tsx:111 | The subtitle is never empty |
| MemberCard.SubtitleFallback | src/components/MemberCard.tsx:111 | The fallback ends with a space and the type, starts with "Year " exactly when a non-zero college year is known, and is a space and the type otherwise |
| MemberCard.SubtitleExamples | src/components/MemberCard.tsx:111 | A member titled "Lead" in department "CS" shows "Lead"; one with neither, in year 2, of type "Member" shows "Year 2 Member" |
| MemberCard.SubtitleDistinguishesYears | src/components/MemberCard.tsx:111 | Members differing only in their non-zero college year, positive or negative, get different subtitles |
| MemberCard.CardLinks | src/components/MemberCard.tsx:51-101 | At most four social icons, none for Facebook or Twitter |
| MemberCard.CardLinksAreSchemaLinksOnCard | src/components/MemberCard.tsx:51-101 | The card's social icons are exactly the Person schema's links without Facebook and Twitter, in the same order |
| MemberCard.CardLinksOrdered | src/components/MemberCard.tsx:51-101 | The icons come in the order GitHub, LinkedIn, Instagram, website, and never for Facebook or Twitter |
| MemberCard.CardLinksSound | src/components/MemberCard.tsx:51-101 | Every social icon carries the member's non-empty link for its network |
| MemberCard.CardLinksComplete | src/components/MemberCard.tsx:51-101 | Every shown network with a non-empty link gets its icon |
| MemberCard.Contacts | src/components/MemberCard.tsx:40-101 | The mail icon with "mailto:" + address comes first exactly when the address is non-empty, followed by the social icons in order |
| MemberCard.ContactsWithinSameAs | src/components/MemberCard.tsx:12-101 | Every social icon's link is also in the Person schema's sameAs, and its network is one the card shows |
| MemberCard.Render | src/components/MemberCard.tsx:10-113 | The card has the Person schema, a photo described by the name exactly when there is a photo (exactly when the schema has an image), the contacts and the subtitle |
| SeoData.GetPageSeo | src/config/seoData.ts:57-67 | The page's fields are kept, its URL is the site address followed by its path, which starts with "/", and site name and author are added |
| SeoData.PageUrlsDistinct | src/config/seoData.ts:26-67 | Different pages have different canonical URLs |
| SeoData.GetPersonSchema | src/config/seoData.ts:98-128 | image, jobTitle and affiliation are present exactly when photo, title and department are non-empty; sameAs holds the member's non-empty social links in network order |
| SeoData.SameAsIsExactlyThePresentLinks | src/config/seoData.ts:120-127 | Every non-empty social link is in sameAs, and sameAs holds nothing else |
| SeoData.GetEventSchema | src/config/seoData.ts:130-174 | The status is Scheduled exactly when the event is not past, and Postponed otherwise; an offer (price "0", NPR, valid from the event date) is present exactly when the link is non-empty |
| SeoData.GetMetaTags | src/config/seoData.ts:176-207 | Title, description, URL and image agree across meta, Open Graph and Twitter; robots and card are fixed; the Open Graph type falls back to "website" |
| Types.StatusName | src/types/index.ts:39 | Each status has its own spelling: "upcoming", "past" or "running" exactly for that status |
| Types.StatusNameInjective | src/types/index.ts:39 | Statuses are spelled differently, so comparing status strings is comparing statuses |
| Types.SocialLinks | src/config/seoData.ts:120-127 | A member's social links come in network order, each carrying the member's non-empty link, and every non-empty link is there |
| Text.NatToString | src/components/Countdown.tsx:19 | `toString` of a whole number gives at least one digit and no leading zero |
| Text.ValueOfNatToString | src/components/Countdown.tsx:19 | Reading the rendered digits back gives the number |
| Text.IntToStringInjective | src/components/MemberCard.tsx:111 | Different whole numbers, of either sign, render as different text |
| Text.PadStart | src/components/Countdown.tsx:19 | Padding keeps the string as its suffix, fills only in front with the filler, and reaches the width exactly when it was shorter |
| Text.IndexOf | src/pages/EventDetailsPage.tsx:173 | The position found is an occurrence with none earlier, and nothing is found exactly when the pattern does not occur |
| Text.ReplaceFirst | src/pages/EventDetailsPage.tsx:175 | A string without the pattern is returned unchanged; otherwise the result's length changes by the replacement's length minus the pattern's |
| Text.ReplaceFirstSplits | src/pages/EventDetailsPage.tsx:175 | Replacing rewrites the first occurrence and keeps everything around it |
| Text.ReplaceFirstAbsent | src/pages/EventDetailsPage.tsx:175 | Replacing a pattern that does not occur leaves the string alone |
| Text.Prefix | src/pages/EventDetailsPage.tsx:51 | `substring(0, n)` keeps a string of at most n characters whole and cuts a longer one to its first n |
| Text.Join | src/pages/EventDetailsPage.tsx:53 | Joining no pieces gives ""; otherwise the result starts with the first piece, ends with the last, and is as long as the pieces plus one separator between each neighbouring pair |
| Text.JoinSnoc | src/pages/EventDetailsPage.tsx:53 | Joining one more piece appends exactly one separator and that piece, so every piece sits in order between separators |
| Text.DigitsBetweenDetermined | src/pages/EventsPage.tsx:55 | A number embedded between fixed text and a non-digit can be read back uniquely |

## Left out

- Fetching and JSON decoding, with their `console.error` logging, are not
  modelled. Their outcome is an input: `Load<T>` for the two listing pages
  and `Option<EventData>` for the event page. Malformed documents (missing
  keys, wrong types) are not modelled, because the records assume
  well-formed content files.
- React state, effects and `setInterval` are not modelled; they are timer
  plumbing. The countdown's ticks are the sequence of clock readings folded
  by `AIRegistration.Run`, whatever the effect's re-runs and the interval
  deliver. On the event page, the order in which two overlapping fetches
  settle is not modelled.
- The Tally embed script is a third-party DOM side effect. JSX markup,
  styling and animation, the static components and the route table are
  presentation or router wiring.
- Markdown rendering, `JSON.stringify` and the reading of
  `window.location` are foreign calls. The schema records are kept as
  records, and the constant "@context"/"@type" keys are dropped.
- `getOrganizationSchema`, `getWebsiteSchema` and the `SITE_CONFIG` fields
  they alone read are constant records that take no input and are not used
  by the modelled pages.
- Floating point is not modelled. The countdown uses exact integer
  division; `AIRegistration.DecomposeIsFloorFormula` relates it to the
  source's formula over exact reals, not IEEE doubles.
- String lengths count characters, not UTF-16 code units, so a 160-unit
  cut that splits a surrogate pair is not modelled.
- `NaN` and fractional college years are not modelled: a college year is a
  whole number (`Option<int>`), so a JSON value such as 2.5, which the page
  would print as "2.5th Year", cannot be expressed, and `NonZero` treats
  only a missing value and 0 as falsy.
- EventDetails.Render: for an event without a tag list the page's
  keywords are the corrected ones, with nothing between "CITC event" and
  the page keywords. The source writes "undefined" there. See
  "## Findings"; the as-written keywords are
  `EventDetails.KeywordsAsWritten`.
- Text.NatToString: always prints every decimal digit, whereas JavaScript's
  `toString` switches to exponent notation from 10^21. The numbers the
  pages print are event counts, countdown units and college years, all far
  below that bound.
- Countdown.UnitUnchangedIff: states the "unchanged value means no
  animation" equivalence only for values of at most two digits, because
  only those always render as exactly two digits. Longer day counts are
  covered by Countdown.NothingChangedIff instead.

## Findings

| source | as written | input that shows it | evidently intended | confidence | as-written member | corrected member |
|---|---|---|---|---|---|---|
| src/pages/EventDetailsPage.tsx:53 | The keywords interpolate `event.tags?.join(', ')`, which renders a missing tag list as the word "undefined" | An event with no `tags` key: its keywords read "<title>, CITC event, undefined, tech events, ..." | A missing tag list contributes no tags, as an empty list does | high on the behaviour, medium on intent; not executed | EventDetails.KeywordsAsWrittenSayUndefined | EventDetails.KeywordsIgnoreMissingTags |

`EventDetails.TagTextAsWritten` and `EventDetails.KeywordsAsWritten` model
the source as written. `EventDetails.Keywords` is the corrected definition,
and the event page's meta tags in `EventDetails.Render` use it.

=== FILE: ai_registration.dfy ===
/** The countdown banner of the competition page
    (src/pages/AIRegistrationPage.tsx). Every tick reads the clock, and
    either splits the time left into days, hours, minutes and seconds or,
    once no time is left, raises the expired flag. The ticks are taken
    at a sequence of clock readings: the readings at which `updateCountdown`
    runs, whether the effect's re-run or the interval calls it. */
module AIRegistration {
  import opened Values
  import opened Countdown

  /** 2026-01-18T00:00:00+05:45 in milliseconds since the Unix epoch. */
  const TargetDate: int := 1768673700000

  const MsPerSecond := 1000
  const MsPerMinute := 60 * 1000
  const MsPerHour := 60 * 60 * 1000
  const MsPerDay := 24 * 60 * 60 * 1000

  function TotalSeconds(c: Duration): nat
  {
    c.days * 86400 + c.hours * 3600 + c.minutes * 60 + c.seconds
  }

  /** Hours, minutes and seconds are within a clock's ranges. */
  predicate InRange(c: Duration) {
    c.hours < 24 && c.minutes < 60 && c.seconds < 60
  }

  // ---------------------------------------------------------------------
  // Arithmetic facts
  // ---------------------------------------------------------------------

  lemma MulLessCancel(x: int, y: int, b: int)
    requires b > 0 && x * b < y * b
    ensures x < y
  {
    assert (y - x) * b > 0;
  }

  /** Division is determined by any quotient/remainder pair. */
  lemma DivUnique(a: int, b: int, q: int, r: int)
    requires b > 0 && a == q * b + r && 0 <= r < b
    ensures a / b == q && a % b == r
  {
    var q', r' := a / b, a % b;
    assert a == q' * b + r';
    assert q' * b < (q + 1) * b;
    MulLessCancel(q', q + 1, b);
    assert q * b < (q' + 1) * b;
    MulLessCancel(q, q' + 1, b);
  }

  /** Dividing twice is dividing by the product. */
  lemma DivDiv(a: nat, b: nat, c: nat)
    requires b > 0 && c > 0
    ensures (a / b) / c == a / (b * c)
  {
    var q, r := a / (b * c), a % (b * c);
    assert a == q * (b * c) + r;
    assert r == (r / b) * b + r % b;
    assert a == (q * c + r / b) * b + r % b;
    DivUnique(a, b, q * c + r / b, r % b);
    assert (r / b) * b < c * b;
    MulLessCancel(r / b, c, b);
    DivUnique(a / b, c, q, r / b);
  }

  // ---------------------------------------------------------------------
  // One decomposition
  // ---------------------------------------------------------------------

  /** The milliseconds left, read as whole days plus the hours, minutes and
      seconds of the last day, are the whole seconds left. */
  lemma SecondsOfDistance(distance: int)
    requires distance > 0
    ensures (distance / MsPerDay) * 86400 + ((distance / MsPerHour) % 24) * 3600
          + ((distance / MsPerMinute) % 60) * 60 + (distance / MsPerSecond) % 60 == distance / 1000
  {
    var s := distance / 1000;
    DivDiv(distance, 1000, 60);
    DivDiv(distance, 60000, 60);
    DivDiv(distance, 3600000, 24);
    var m, h := s / 60, s / 3600;
    DivDiv(s, 60, 60);
    assert distance / MsPerMinute == m;
    assert distance / MsPerHour == h;
    assert distance / MsPerDay == h / 24;
    assert s == 60 * m + s % 60;
    assert m == 60 * h + m % 60;
    assert h == 24 * (h / 24) + h % 24;
  }

  /** `newCountdown` for a positive distance in milliseconds: the units are
      within range and add back up to the whole seconds left. */
  function Decompose(distance: int): (c: Duration)
    requires distance > 0
    ensures InRange(c)
    ensures TotalSeconds(c) == distance / 1000
  {
    SecondsOfDistance(distance);
    Duration(distance / MsPerDay, (distance / MsPerHour) % 24, (distance / MsPerMinute) % 60, (distance / MsPerSecond) % 60)
  }

  /** Any in-range duration is what a distance in its last second decomposes
      into: the decomposition loses nothing but the milliseconds. */
  lemma DecomposeInverts(c: Duration, ms: nat)
    requires InRange(c) && ms < 1000 && TotalSeconds(c) * 1000 + ms > 0
    ensures Decompose(TotalSeconds(c) * 1000 + ms) == c
  {
    var d := TotalSeconds(c) * 1000 + ms;
    var c' := Decompose(d);
    DivUnique(d, 1000, TotalSeconds(c), ms);
    var s := TotalSeconds(c);
    DivUnique(s, 60, c.days * 1440 + c.hours * 60 + c.minutes, c.seconds);
    DivUnique(s, 60, c'.days * 1440 + c'.hours * 60 + c'.minutes, c'.seconds);
    var m := c.days * 1440 + c.hours * 60 + c.minutes;
    DivUnique(m, 60, c.days * 24 + c.hours, c.minutes);
    DivUnique(m, 60, c'.days * 24 + c'.hours, c'.minutes);
    DivUnique(c.days * 24 + c.hours, 24, c.days, c.hours);
    DivUnique(c'.days * 24 + c'.hours, 24, c'.days, c'.hours);
  }

  /** 90,061 seconds are one day, one hour, one minute and one second. */
  lemma DecomposeExample()
    ensures Decompose(90061000) == Duration(1, 1, 1, 1)
  {
    DecomposeInverts(Duration(1, 1, 1, 1), 0);
  }

  // ---------------------------------------------------------------------
  // The source's floating-point formula
  // ---------------------------------------------------------------------

  /** `Math.trunc`. */
  function Trunc(y: real): int
  {
    if y >= 0.0 then y.Floor else -((-y).Floor)
  }

  /** JavaScript's `%` on numbers: the remainder of a truncating division. */
  function JsRemainder(x: real, m: real): real
    requires m != 0.0
  {
    x - m * (Trunc(x / m) as real)
  }

  lemma FloorOfQuotient(a: int, b: int)
    requires a >= 0 && b > 0
    ensures (a as real / b as real).Floor == a / b
  {
    var q, r := a / b, a % b;
    assert a as real == q as real * b as real + r as real;
    assert a as real / b as real == q as real + r as real / b as real;
    assert 0.0 <= r as real / b as real < 1.0;
  }

  lemma FloorOfRemainder(a: int, k: int, m: int)
    requires a >= 0 && k > 0 && m > 0
    ensures JsRemainder(a as real / k as real, m as real).Floor == (a / k) % m
  {
    var x := a as real / k as real;
    assert x / m as real == a as real / (k * m) as real;
    FloorOfQuotient(a, k * m);
    DivDiv(a, k, m);
    var q := (a / k) / m;
    assert Trunc(x / m as real) == q;
    FloorOfQuotient(a, k);
    assert JsRemainder(x, m as real) == x - (m * q) as real;
    assert (x - (m * q) as real).Floor == x.Floor - m * q;
  }

  /** The four floors of the source's formula, over exact reals. */
  lemma FloorsOfDistance(distance: int)
    requires distance > 0
    ensures distance / 86400000 == (distance as real / 86400000.0).Floor
    ensures (distance / 3600000) % 24 == JsRemainder(distance as real / 3600000.0, 24.0).Floor
    ensures (distance / 60000) % 60 == JsRemainder(distance as real / 60000.0, 60.0).Floor
    ensures (distance / 1000) % 60 == JsRemainder(distance as real / 1000.0, 60.0).Floor
  {
    assert distance / 86400000 == (distance as real / 86400000.0).Floor by {
      FloorOfQuotient(distance, 86400000);
    }
    assert (distance / 3600000) % 24 == JsRemainder(distance as real / 3600000.0, 24.0).Floor by {
      FloorOfRemainder(distance, 3600000, 24);
    }
    assert (distance / 60000) % 60 == JsRemainder(distance as real / 60000.0, 60.0).Floor by {
      FloorOfRemainder(distance, 60000, 60);
    }
    FloorOfRemainder(distance, 1000, 60);
  }

  /** With exact arithmetic, `Math.floor(distance / d)` and
      `Math.floor((distance / u) % n)` compute the same units as the
      integer division and remainder used here. */
  lemma DecomposeIsFloorFormula(distance: int)
    requires distance > 0
    ensures Decompose(distance).days == (distance as real / 86400000.0).Floor
    ensures Decompose(distance).hours == JsRemainder(distance as real / 3600000.0, 24.0).Floor
    ensures Decompose(distance).minutes == JsRemainder(distance as real / 60000.0, 60.0).Floor
    ensures Decompose(distance).seconds == JsRemainder(distance as real / 1000.0, 60.0).Floor
  {
    FloorsOfDistance(distance);
  }

  // ---------------------------------------------------------------------
  // The tick state machine
  // ---------------------------------------------------------------------

  /** The page's three pieces of state. */
  datatype State = State(expired: bool, countdown: Duration, prev: Duration)

  /** Before the first tick: not expired, both countdowns at zero. */
  const Initial := State(false, Zero, Zero)

  /** `updateCountdown` run at clock reading `now`. */
  function Tick(s: State, now: int): (r: State)
    ensures TargetDate - now <= 0 ==> r.expired && r.countdown == s.countdown && r.prev == s.prev
    ensures TargetDate - now > 0 ==> r.expired == s.expired && r.prev == s.countdown
    ensures s.expired ==> r.expired
  {
    var distance := TargetDate - now;
    if distance <= 0 then s.(expired := true)
    else s.(prev := s.countdown, countdown := Decompose(distance))
  }

  /** A tick with time left shows exactly the time left, to the second. */
  lemma TickShowsTimeLeft(s: State, now: int)
    requires TargetDate - now > 0
    ensures InRange(Tick(s, now).countdown)
    ensures TotalSeconds(Tick(s, now).countdown) == (TargetDate - now) / 1000
  {
  }

  /** The ticks delivered at the clock readings `times`, in order. */
  function Run(s: State, times: seq<int>): (r: State)
    ensures times == [] ==> r == s
    ensures times != [] ==> r == Tick(Run(s, times[..|times| - 1]), times[|times| - 1])
    decreases |times|
  {
    if times == [] then s
    else
      assert |times| > 1 ==> times[..|times| - 1][1..] == times[1..][..|times| - 2];
      Run(Tick(s, times[0]), times[1..])
  }

  /** Once expired, the page stays expired whatever the clock says. */
  lemma {:induction false} ExpiredIsTerminal(s: State, times: seq<int>)
    requires s.expired
    ensures Run(s, times).expired
    decreases |times|
  {
    if times != [] {
      ExpiredIsTerminal(Tick(s, times[0]), times[1..]);
    }
  }

  /** A single reading at or after the target date expires the page for
      good. */
  lemma {:induction false} ExpiresOnceTargetReached(s: State, times: seq<int>, i: nat)
    requires i < |times| && times[i] >= TargetDate
    ensures Run(s, times).expired
    decreases |times|
  {
    if i == 0 {
      ExpiredIsTerminal(Tick(s, times[0]), times[1..]);
    } else {
      ExpiresOnceTargetReached(Tick(s, times[0]), times[1..], i - 1);
    }
  }

  /** Every state reachable from the initial one shows in-range units. */
  lemma {:induction false} RunStaysInRange(s: State, times: seq<int>)
    requires InRange(s.countdown) && InRange(s.prev)
    ensures InRange(Run(s, times).countdown) && InRange(Run(s, times).prev)
    decreases |times|
  {
    if times != [] {
      var t := Tick(s, times[0]);
      RunStaysInRange(t, times[1..]);
    }
  }

  // ---------------------------------------------------------------------
  // What the page shows
  // ---------------------------------------------------------------------

  datatype PageView = PageView(heading: string, lead: string, countdown: Option<seq<UnitView>>)

  function View(s: State): (v: PageView)
    ensures v.countdown.Some? <==> !s.expired
    ensures v.countdown.Some? ==> v.countdown.value == Display(s.countdown, s.prev)
    ensures v.heading == (if s.expired then "The Arena is Open" else "Competition Starts Officially")
    ensures v.lead == (if s.expired then "Register now for the AI Image Prompting Competition 2026."
                       else "Prepare yourself. The AI Image Prompting challenge begins soon.")
  {
    if !s.expired then
      PageView(
        "Competition Starts Officially",
        "Prepare yourself. The AI Image Prompting challenge begins soon.",
        Some(Display(s.countdown, s.prev)))
    else
      PageView(
        "The Arena is Open",
        "Register now for the AI Image Prompting Competition 2026.",
        None)
  }

  /** Once the page has expired, no later tick brings the countdown back. */
  lemma CountdownNeverReturns(s: State, times: seq<int>)
    requires s.expired
    ensures View(Run(s, times)).countdown.None?
    ensures View(Run(s, times)).heading == "The Arena is Open"
  {
    ExpiredIsTerminal(s, times);
  }
}

=== FILE: countdown.dfy ===
/** The countdown display (src/components/Countdown.tsx): each unit's value
    is zero-padded to two digits and split into characters, and a digit is
    marked as changed when it differs from the digit at the same place of
    the previous value. */
module Countdown {
  import opened Text

  /** The remaining time, split into calendar-free units. */
  datatype Duration = Duration(days: nat, hours: nat, minutes: nat, seconds: nat)

  const Zero := Duration(0, 0, 0, 0)

  /** `splitDigits`: `n.toString().padStart(2, "0").split("")`. */
  function SplitDigits(n: nat): (r: string)
    ensures AllDigits(r) && |r| >= 2
    ensures n < 10 ==> r == ['0', DigitChar(n)]
    ensures n >= 10 ==> r == NatToString(n)
  {
    PadStart(NatToString(n), 2, '0')
  }

  /** Values below 100 always show exactly two digits, the first being '0'
      exactly for values below 10. */
  lemma SplitDigitsTwoWide(n: nat)
    requires n <= 99
    ensures |SplitDigits(n)| == 2
    ensures SplitDigits(n)[0] == '0' <==> n < 10
  {
    if n >= 10 {
      assert NatToString(n) == NatToString(n / 10) + [DigitChar(n % 10)];
    }
  }

  /** Values of 100 or more are not cut to two digits: every decimal digit
      is shown. */
  lemma SplitDigitsUntruncated(n: nat)
    requires n >= 10
    ensures SplitDigits(n) == NatToString(n)
    ensures Pow10(|SplitDigits(n)| - 1) <= n < Pow10(|SplitDigits(n)|)
  {
    NatToStringLength(n);
  }

  /** Reading the shown digits as a decimal number gives the value back. */
  lemma SplitDigitsRoundTrip(n: nat)
    ensures Value(SplitDigits(n)) == n
  {
    var s := NatToString(n);
    ValueOfNatToString(n);
    if |s| < 2 {
      ValueIgnoresLeadingZero(s);
      assert SplitDigits(n) == ['0'] + s;
    }
  }

  /** Two values are displayed with the same digits only if they are equal. */
  lemma SplitDigitsInjective(a: nat, b: nat)
    ensures SplitDigits(a) == SplitDigits(b) ==> a == b
  {
    SplitDigitsRoundTrip(a);
    SplitDigitsRoundTrip(b);
  }

  /** `digit !== prevDigits[index]` for every index of the current digits;
      an index the previous digits do not reach reads `undefined` there and
      so counts as changed. */
  function Changed(curr: string, prev: string): (r: seq<bool>)
    ensures |r| == |curr|
    ensures forall i :: 0 <= i < |curr| ==> (!r[i] <==> i < |prev| && prev[i] == curr[i])
  {
    seq(|curr|, i requires 0 <= i < |curr| => i >= |prev| || curr[i] != prev[i])
  }

  /** No digit is marked exactly when the current digits are a prefix of
      the previous ones. */
  lemma NothingChangedIff(curr: string, prev: string)
    ensures (forall i :: 0 <= i < |curr| ==> !Changed(curr, prev)[i])
        <==> |curr| <= |prev| && prev[..|curr|] == curr
  {
    var r := Changed(curr, prev);
    if |curr| > |prev| {
      assert r[|prev|];
    }
    if forall i :: 0 <= i < |curr| ==> !r[i] {
      if |curr| <= |prev| {
        forall i | 0 <= i < |curr|
          ensures prev[..|curr|][i] == curr[i]
        {
          assert !r[i];
        }
      }
    }
    if |curr| <= |prev| && prev[..|curr|] == curr {
      assert forall i :: 0 <= i < |curr| ==> prev[..|curr|][i] == prev[i];
    }
  }

  /** For two values of at most two digits, no digit is marked exactly when
      the value is unchanged. */
  lemma UnitUnchangedIff(v: nat, w: nat)
    requires v <= 99 && w <= 99
    ensures (forall i :: 0 <= i < 2 ==> !Changed(SplitDigits(v), SplitDigits(w))[i]) <==> v == w
  {
    var c, p := SplitDigits(v), SplitDigits(w);
    SplitDigitsTwoWide(v);
    SplitDigitsTwoWide(w);
    var r := Changed(c, p);
    if v == w {
      assert !r[0] && !r[1];
    } else {
      SplitDigitsInjective(v, w);
      assert c[0] != p[0] || c[1] != p[1];
      assert r[0] || r[1];
    }
  }

  // ---------------------------------------------------------------------
  // The four units
  // ---------------------------------------------------------------------

  datatype Unit = Unit(name: string, value: nat)

  /** `Object.entries(countdown)`: the keys in the order the record is
      built, days first and seconds last. */
  function Units(c: Duration): (r: seq<Unit>)
    ensures |r| == 4
    ensures r[0].name == "days" && r[1].name == "hours" && r[2].name == "minutes" && r[3].name == "seconds"
    ensures r[0].value == c.days && r[1].value == c.hours && r[2].value == c.minutes && r[3].value == c.seconds
  {
    [Unit("days", c.days), Unit("hours", c.hours), Unit("minutes", c.minutes), Unit("seconds", c.seconds)]
  }

  /** What one unit shows: its name, its digits, and which digits animate. */
  datatype UnitView = UnitView(name: string, digits: string, changed: seq<bool>)

  /** The whole display for the current and previous countdown values. */
  function Display(curr: Duration, prev: Duration): (r: seq<UnitView>)
    ensures |r| == 4
    ensures forall k :: 0 <= k < 4 ==>
      && r[k].name == Units(curr)[k].name
      && r[k].digits == SplitDigits(Units(curr)[k].value)
      && r[k].changed == Changed(r[k].digits, SplitDigits(Units(prev)[k].value))
  {
    var u, p := Units(curr), Units(prev);
    seq(4, k requires 0 <= k < 4 =>
      var digits := SplitDigits(u[k].value);
      UnitView(u[k].name, digits, Changed(digits, SplitDigits(p[k].value))))
  }

  /** Showing a value against itself animates nothing. */
  lemma DisplayOfSameValueIsStill(c: Duration)
    ensures forall k, i :: 0 <= k < 4 && 0 <= i < |Display(c, c)[k].changed| ==> !Display(c, c)[k].changed[i]
  {
  }
}

=== FILE: event_card.dfy ===
/** The event card (src/components/EventCard.tsx): a link to the event's
    detail route, a status badge, the tags, and a registration button that
    only running events with a link get. */
module EventCard {
  import opened Values
  import opened Types

  /** `event.status === 'running'`: comparing the status string is the
      same as comparing the status. */
  predicate IsRunning(e: Event)
    ensures IsRunning(e) <==> e.status == Running
  {
    StatusName(e.status) == "running"
  }

  /** `isRunning && event.registration_link`, the gate of every registration
      button on the site: only a running event with a non-empty link is
      open, not a running event without one, nor an upcoming or past event
      with one. */
  predicate RegistrationOpen(e: Event)
    ensures RegistrationOpen(e) <==> e.status == Running && e.registrationLink.Some? && e.registrationLink.value != ""
  {
    IsRunning(e) && Present(e.registrationLink)
  }

  /** The route of the event's detail page. */
  function DetailRoute(e: Event): (route: string)
    ensures |route| == 8 + |e.id|
    ensures route[..8] == "/events/" && route[8..] == e.id
  {
    "/events/" + e.id
  }

  datatype Card = Card(
    route: string,
    image: string,
    title: string,
    badge: string,
    tags: seq<string>,
    description: string,
    date: string,
    time: string,
    location: string,
    register: Option<string>)

  /** What one card shows. */
  function Render(e: Event): (c: Card)
    ensures c.route == DetailRoute(e)
    ensures c.badge == (if IsRunning(e) then "Register Now" else StatusName(e.status))
    ensures c.tags == OrEmpty(e.tags)
    ensures c.register.Some? <==> RegistrationOpen(e)
    ensures c.register.Some? ==> c.register == e.registrationLink
    ensures c.title == e.title && c.image == e.image && c.description == e.description
    ensures c.date == e.date && c.time == e.time && c.location == e.location
  {
    Card(
      DetailRoute(e),
      e.image,
      e.title,
      if IsRunning(e) then "Register Now" else StatusName(e.status),
      OrEmpty(e.tags),
      e.description,
      e.date,
      e.time,
      e.location,
      if RegistrationOpen(e) then e.registrationLink else None)
  }

  /** The badge tells a running event from the others: it reads
      "Register Now" exactly for running events, and the raw status
      otherwise. */
  lemma BadgeIdentifiesRunning(e: Event)
    ensures Render(e).badge == "Register Now" <==> e.status == Running
    ensures e.status != Running ==> Render(e).badge == StatusName(e.status)
  {
    var r := Render(e);
    if e.status == Upcoming {
      assert r.badge[0] == 'u';
    } else if e.status == Past {
      assert r.badge[0] == 'p';
    }
  }

  /** Different events have different detail routes. */
  lemma DetailRouteInjective(a: Event, b: Event)
    ensures DetailRoute(a) == DetailRoute(b) ==> a.id == b.id
  {
  }
}

=== FILE: event_details.dfy ===
/** The page of one event (src/pages/EventDetailsPage.tsx). The content file
    is fetched once per route parameter; the event with that id is looked up;
    the page then shows a spinner, an "Event Not Found" notice, or the event
    with its search-engine data, an optional registration button and an
    optional gallery. The fetch itself is replaced by its outcome. */
module EventDetails {
  import opened Values
  import opened Text
  import opened Types
  import SeoData
  import EventCard

  // ---------------------------------------------------------------------
  // Looking the event up
  // ---------------------------------------------------------------------

  /** The index of the first event at or after k whose id is `id`. */
  function FindFrom(events: seq<Event>, id: string, k: nat): (r: Option<nat>)
    ensures r.Some? ==> k <= r.value < |events| && events[r.value].id == id
    ensures r.Some? ==> forall j :: k <= j < r.value ==> events[j].id != id
    ensures r.None? ==> forall j :: k <= j < |events| ==> events[j].id != id
    decreases |events| - k
  {
    if k >= |events| then None
    else if events[k].id == id then Some(k)
    else FindFrom(events, id, k + 1)
  }

  /** `data.events.find((e) => e.id === id)`. */
  function Find(events: seq<Event>, id: string): (r: Option<Event>)
    ensures r.None? <==> forall j :: 0 <= j < |events| ==> events[j].id != id
    ensures r.Some? ==> r.value.id == id && r.value in events
  {
    match FindFrom(events, id, 0)
    case None => None
    case Some(i) => Some(events[i])
  }

  /** When several events share the id, the one listed first is shown. */
  lemma FindIsFirstMatch(events: seq<Event>, id: string, i: nat)
    requires i < |events| && events[i].id == id
    requires forall j :: 0 <= j < i ==> events[j].id != id
    ensures Find(events, id) == Some(events[i])
  {
    var r := FindFrom(events, id, 0);
    assert r.Some?;
    assert !(r.value < i);
    assert !(i < r.value);
  }

  // ---------------------------------------------------------------------
  // The page's state
  // ---------------------------------------------------------------------

  /** `loading` and `event`. */
  datatype State = State(loading: bool, event: Option<Event>)

  /** Before the fetch settles. */
  const Initial := State(true, None)

  /** The effect's outcome for route parameter `id`: the document when the
      fetch and the JSON parse succeed, None when either fails. A success
      replaces the event by the lookup's result; a failure only clears the
      spinner and leaves whatever event was already there. The effect does
      not raise `loading` again when the parameter changes. */
  function Settle(s: State, fetched: Option<EventData>, id: string): (r: State)
    ensures !r.loading
    ensures fetched.Some? ==> r.event == Find(fetched.value.events, id)
    ensures fetched.None? ==> r.event == s.event
  {
    match fetched
    case Some(data) => State(false, Find(data.events, id))
    case None => s.(loading := false)
  }

  /** After a failed refetch for another id the previous event stays on
      screen, although its id is not the route's. */
  lemma FailedRefetchKeepsPreviousEvent(e: Event, id: string)
    ensures Settle(State(false, Some(e)), None, id).event == Some(e)
  {
  }

  // ---------------------------------------------------------------------
  // Search-engine data
  // ---------------------------------------------------------------------

  const TitleSuffix := " - CITC Event"

  /** `event.description.substring(0, 160) + '...'`. */
  function PageDescription(desc: string): (r: string)
    ensures |r| <= 163
    ensures |r| >= 3 && r[|r| - 3..] == "..."
    ensures |desc| <= 160 ==> r == desc + "..."
    ensures |desc| > 160 ==> |r| == 163 && r[..160] == desc[..160]
  {
    Prefix(desc, 160) + "..."
  }

  /** Only the first 160 characters of a long description matter: two
      descriptions that agree on those give the same meta description. */
  lemma PageDescriptionCut(a: string, b: string)
    requires |a| >= 160 && |b| >= 160 && a[..160] == b[..160]
    ensures PageDescription(a) == PageDescription(b)
  {
    assert Prefix(a, 160) == a[..160];
    assert Prefix(b, 160) == b[..160];
  }

  /** `pageUrl`: the browser's address when there is a window, else the
      event's canonical address. */
  function PageUrl(e: Event, href: Option<string>): (url: string)
    ensures href.Some? ==> url == href.value
    ensures href.None? ==> url == SeoData.SiteUrl + EventCard.DetailRoute(e)
  {
    match href
    case Some(h) => h
    case None => SeoData.SiteUrl + "/events/" + e.id
  }

  /** The tag part of the keywords as the source builds it:
      `${event.tags?.join(', ')}` renders a missing list as "undefined". */
  function TagTextAsWritten(tags: Option<seq<string>>): (r: string)
    ensures tags.None? ==> r == "undefined"
    ensures tags.Some? ==> r == Join(tags.value, ", ")
  {
    match tags
    case None => "undefined"
    case Some(t) => Join(t, ", ")
  }

  /** The keywords as the source builds them: the title, "CITC event", the
      tag part, then the page's keywords, separated by ", ". */
  function KeywordsAsWritten(e: Event, pageKeywords: string): (r: string)
    ensures var t := TagTextAsWritten(e.tags);
      && |r| == |e.title| + 14 + |t| + 2 + |pageKeywords|
      && r[..|e.title|] == e.title
      && r[|e.title|..|e.title| + 14] == ", CITC event, "
      && r[|e.title| + 14..|e.title| + 14 + |t|] == t
      && r[|r| - |pageKeywords| - 2..] == ", " + pageKeywords
  {
    e.title + ", CITC event, " + TagTextAsWritten(e.tags) + ", " + pageKeywords
  }

  /** An event without tags gets the word "undefined" among its keywords,
      so it is described differently from one with an empty tag list. */
  lemma KeywordsAsWrittenSayUndefined(e: Event, pageKeywords: string)
    requires e.tags.None?
    ensures var k := KeywordsAsWritten(e, pageKeywords);
      OccursAt(k, "undefined", |e.title| + 14)
    ensures KeywordsAsWritten(e, pageKeywords) != KeywordsAsWritten(e.(tags := Some([])), pageKeywords)
  {
    var k := KeywordsAsWritten(e, pageKeywords);
    var h := e.title + ", CITC event, ";
    assert |h| == |e.title| + 14;
    assert k == h + "undefined" + (", " + pageKeywords);
    assert k[|h|..|h| + 9] == "undefined";
    assert |KeywordsAsWritten(e.(tags := Some([])), pageKeywords)| + 9 == |k|;
  }

  /** The tag part with a missing list read as an empty one. */
  function TagText(tags: Option<seq<string>>): (r: string)
    ensures tags.Some? ==> r == TagTextAsWritten(tags)
    ensures tags.None? ==> r == TagTextAsWritten(Some([]))
  {
    Join(OrEmpty(tags), ", ")
  }

  /** The keywords: the event's title, "CITC event", its tags joined by
      commas, then the events page's keywords. */
  function Keywords(e: Event, pageKeywords: string): (r: string)
    ensures e.tags.Some? ==> r == KeywordsAsWritten(e, pageKeywords)
    ensures e.tags.None? ==> r == KeywordsAsWritten(e.(tags := Some([])), pageKeywords)
  {
    e.title + ", CITC event, " + TagText(e.tags) + ", " + pageKeywords
  }

  /** A missing tag list and an empty one describe the event alike: the
      keywords go straight from "CITC event" to the page's keywords. */
  lemma KeywordsIgnoreMissingTags(e: Event, pageKeywords: string)
    ensures Keywords(e.(tags := None), pageKeywords) == Keywords(e.(tags := Some([])), pageKeywords)
    ensures Keywords(e.(tags := None), pageKeywords) == e.title + ", CITC event, , " + pageKeywords
  {
  }

  // ---------------------------------------------------------------------
  // The registration button
  // ---------------------------------------------------------------------

  /** Where the button leads: a route of this application, or another
      site opened in a new tab. */
  datatype Target = Internal(route: string) | External(href: string)

  const SiteHost := "citc.ncit.edu.np"

  /** A link that mentions the site's host or starts with "/" is routed
      inside the application, with the first occurrence of the site's
      address removed; any other link is followed as it is. */
  function RegistrationTarget(link: string): (t: Target)
    ensures t.Internal? <==> Includes(link, SiteHost) || StartsWith(link, "/")
    ensures t.Internal? ==> t.route == ReplaceFirst(link, SeoData.SiteUrl, "")
    ensures t.External? ==> t.href == link
  {
    if Includes(link, SiteHost) || StartsWith(link, "/") then Internal(ReplaceFirst(link, SeoData.SiteUrl, ""))
    else External(link)
  }

  /** A link to a page of the site becomes that page's route. */
  lemma SiteLinkBecomesRoute(path: string)
    ensures RegistrationTarget(SeoData.SiteUrl + path) == Internal(path)
  {
    var link := SeoData.SiteUrl + path;
    assert link[8..8 + |SiteHost|] == SiteHost;
    assert OccursAt(link, SiteHost, 8);
    ReplaceFirstPrefix(SeoData.SiteUrl, path);
  }

  /** A relative link that does not spell out the site's address is used as
      the route unchanged. */
  lemma RelativeLinkIsRoute(link: string)
    requires StartsWith(link, "/") && !Includes(link, SeoData.SiteUrl)
    ensures RegistrationTarget(link) == Internal(link)
  {
    ReplaceFirstAbsent(link, SeoData.SiteUrl, "");
  }

  /** A link to another site is opened as it is. */
  lemma ForeignLinkIsExternal(link: string)
    requires !Includes(link, SiteHost) && !StartsWith(link, "/")
    ensures RegistrationTarget(link) == External(link)
  {
  }

  // ---------------------------------------------------------------------
  // The page
  // ---------------------------------------------------------------------

  datatype View =
    | LoadingView
    | NotFoundView
    | DetailView(
        meta: SeoData.MetaTags,
        canonical: string,
        schema: SeoData.EventSchema,
        tags: seq<string>,
        badge: string,
        urgent: bool,
        register: Option<Target>,
        gallery: Option<seq<string>>)

  /** What the page shows in state s; `href` is `window.location.href`,
      None where there is no window. */
  function Render(s: State, href: Option<string>): (v: View)
    ensures s.loading <==> v.LoadingView?
    ensures v.NotFoundView? <==> !s.loading && s.event.None?
    ensures v.DetailView? ==>
      var e := s.event.value;
      && v.meta.title == e.title + TitleSuffix
      && v.meta.meta.description == PageDescription(e.description)
      && v.meta.og.image == e.image
      && v.meta.meta.keywords == Keywords(e, SeoData.GetPageSeo(SeoData.EventsKey).keywords)
      && (e.tags.Some? ==> v.meta.meta.keywords == KeywordsAsWritten(e, SeoData.GetPageSeo(SeoData.EventsKey).keywords))
      && v.meta.og.kind == "website"
      && v.canonical == PageUrl(e, href) && v.meta.og.url == v.canonical
      && v.schema == SeoData.GetEventSchema(e)
      && v.tags == OrEmpty(e.tags)
      && v.badge == StatusName(e.status)
      && (v.urgent <==> e.status == Running)
      && (v.register.Some? <==> EventCard.RegistrationOpen(e))
      && (v.register.Some? ==> v.register.value == RegistrationTarget(e.registrationLink.value))
      && (v.gallery.Some? <==> NonEmpty(e.gallery))
      && (v.gallery.Some? ==> v.gallery == e.gallery)
  {
    if s.loading then LoadingView
    else match s.event
      case None => NotFoundView
      case Some(e) =>
        var seo := SeoData.GetPageSeo(SeoData.EventsKey);
        var url := PageUrl(e, href);
        var meta := SeoData.GetMetaTags(SeoData.MetaConfig(
          e.title + TitleSuffix, PageDescription(e.description), url, e.image,
          Keywords(e, seo.keywords), None));
        DetailView(
          meta,
          url,
          SeoData.GetEventSchema(e),
          OrEmpty(e.tags),
          StatusName(e.status),
          EventCard.IsRunning(e),
          if EventCard.IsRunning(e) && Present(e.registrationLink)
          then Some(RegistrationTarget(e.registrationLink.value)) else None,
          if e.gallery.Some? && |e.gallery.value| > 0 then e.gallery else None)
  }

  /** Once the first fetch settles the page shows the first event with the
      route's id, or "Event Not Found" when there is none or the fetch
      failed. */
  lemma FirstLoadShowsFoundEvent(fetched: Option<EventData>, id: string, href: Option<string>)
    ensures var v := Render(Settle(Initial, fetched, id), href);
      && (fetched.None? ==> v.NotFoundView?)
      && (fetched.Some? ==>
            (v.DetailView? <==> exists j :: 0 <= j < |fetched.value.events| && fetched.value.events[j].id == id))
      && (fetched.Some? ==> Settle(Initial, fetched, id).event == Find(fetched.value.events, id))
      && (v.DetailView? ==> v.schema == SeoData.GetEventSchema(Find(fetched.value.events, id).value))
  {
  }

  /** The detail page offers registration exactly when the event's card
      does. */
  lemma RegisterAgreesWithCard(e: Event, href: Option<string>)
    ensures Render(State(false, Some(e)), href).register.Some? <==> EventCard.Render(e).register.Some?
  {
  }
}

=== FILE: events_page.dfy ===
/** The events listing (src/pages/EventsPage.tsx): the loaded events are
    split by status into running, upcoming and past lists; the "Running &
    Upcoming" section shows the running events followed by the upcoming
    ones, and the "Past Events" section the past ones. The page's meta
    description and preview image are chosen from the active list, and its
    ItemList schema numbers every event from 1. */
module EventsPage {
  import opened Values
  import opened Text
  import opened Seqs
  import opened Types
  import SeoData

  function WithStatus(events: seq<Event>, st: Status): (r: seq<Event>)
    ensures forall i :: 0 <= i < |r| ==> r[i].status == st && r[i] in events
    ensures forall i :: 0 <= i < |events| && events[i].status == st ==> events[i] in r
  {
    Filter((e: Event) => e.status == st, events)
  }

  function RunningEvents(events: seq<Event>): (r: seq<Event>)
    ensures forall e :: e in r <==> e in events && e.status == Running
  {
    WithStatus(events, Running)
  }

  function UpcomingEvents(events: seq<Event>): (r: seq<Event>)
    ensures forall e :: e in r <==> e in events && e.status == Upcoming
  {
    WithStatus(events, Upcoming)
  }

  function PastEvents(events: seq<Event>): (r: seq<Event>)
    ensures forall e :: e in r <==> e in events && e.status == Past
  {
    WithStatus(events, Past)
  }

  /** `[...runningEvents, ...upcomingEvents]`: the events of the document
      that are not past. */
  function ActiveEvents(events: seq<Event>): (r: seq<Event>)
    ensures forall e :: e in r <==> e in events && e.status != Past
  {
    RunningEvents(events) + UpcomingEvents(events)
  }

  /** Each status list keeps its events in document order: the list of a
      concatenation is the concatenation of the lists, and a single event
      contributes itself exactly when it has the status. */
  lemma WithStatusIsOrderPreservingFilter(a: seq<Event>, b: seq<Event>, e: Event, st: Status)
    ensures WithStatus(a + b, st) == WithStatus(a, st) + WithStatus(b, st)
    ensures WithStatus([e], st) == if e.status == st then [e] else []
  {
    FilterAppend((x: Event) => x.status == st, a, b);
    assert [e][1..] == [];
  }

  /** The active section lists every running event before every upcoming
      one, whatever the order of the document. */
  lemma RunningBeforeUpcoming(events: seq<Event>, i: int, j: int)
    requires 0 <= i < |ActiveEvents(events)| && 0 <= j < |ActiveEvents(events)|
    requires ActiveEvents(events)[i].status == Running
    requires ActiveEvents(events)[j].status == Upcoming
    ensures i < j
  {
    var run, up := RunningEvents(events), UpcomingEvents(events);
    var active: seq<Event> := run + up;
    assert ActiveEvents(events) == active;
    assert forall k :: 0 <= k < |run| ==> active[k].status == Running;
    assert forall k :: |run| <= k < |active| ==> active[k].status == Upcoming;
  }

  /** Every event is in exactly one of the active and past sections, with
      its multiplicity, so the two sections together list the document. */
  lemma ActiveAndPastPartition(events: seq<Event>)
    ensures multiset(ActiveEvents(events)) + multiset(PastEvents(events)) == multiset(events)
    ensures |ActiveEvents(events)| + |PastEvents(events)| == |events|
    ensures forall e :: e in events ==> (e in ActiveEvents(events) <==> e.status != Past)
    ensures forall e :: e in events ==> (e in PastEvents(events) <==> e.status == Past)
  {
    var running := (e: Event) => e.status == Running;
    var upcoming := (e: Event) => e.status == Upcoming;
    var past := (e: Event) => e.status == Past;
    forall e
      ensures (multiset(ActiveEvents(events)) + multiset(PastEvents(events)))[e] == multiset(events)[e]
    {
      FilterMultiset(running, events, e);
      FilterMultiset(upcoming, events, e);
      FilterMultiset(past, events, e);
    }
    assert multiset(ActiveEvents(events)) + multiset(PastEvents(events)) == multiset(events);
    assert |multiset(ActiveEvents(events)) + multiset(PastEvents(events))| == |multiset(events)|;
    forall e | e in events
      ensures e in ActiveEvents(events) <==> e.status != Past
      ensures e in PastEvents(events) <==> e.status == Past
    {
      FilterMultiset(running, events, e);
      FilterMultiset(upcoming, events, e);
      FilterMultiset(past, events, e);
    }
  }

  // ---------------------------------------------------------------------
  // Search-engine data
  // ---------------------------------------------------------------------

  const DescriptionHead := "Explore "
  const DescriptionTail := " " + DescriptionRest
  const DescriptionRest := "upcoming tech events and workshops at CITC. Join hackathons, coding competitions, seminars, and networking sessions to enhance your tech skills."

  /** The meta description: it names the number of active events when there
      are any, and is the page's default otherwise. */
  function Description(activeCount: nat): (d: string)
    ensures activeCount == 0 ==> d == SeoData.GetPageSeo(SeoData.EventsKey).description
    ensures activeCount > 0 ==> d == DescriptionHead + NatToString(activeCount) + DescriptionTail
  {
    if activeCount > 0 then DescriptionHead + NatToString(activeCount) + DescriptionTail
    else SeoData.GetPageSeo(SeoData.EventsKey).description
  }

  /** The count can be read back from the description: different positive
      counts give different descriptions. */
  lemma DescriptionDeterminesCount(m: nat, n: nat)
    requires m > 0 && n > 0 && Description(m) == Description(n)
    ensures m == n
  {
    DigitsBetweenDetermined(DescriptionHead, NatToString(m), NatToString(n), DescriptionTail);
    NatToStringInjective(m, n);
  }

  /** The preview image: the first active event's image, else the default. */
  function OgImage(active: seq<Event>): (img: string)
    ensures |active| > 0 ==> img == active[0].image
    ensures |active| == 0 ==> img == SeoData.GetPageSeo(SeoData.EventsKey).ogImage
  {
    if |active| > 0 then active[0].image else SeoData.GetPageSeo(SeoData.EventsKey).ogImage
  }

  /** A running event anywhere in the document wins the preview image over
      every upcoming event: the first running event's image is used. */
  lemma OgImagePrefersRunning(events: seq<Event>, k: nat)
    requires k < |events| && events[k].status == Running
    requires forall j :: 0 <= j < k ==> events[j].status != Running
    ensures OgImage(ActiveEvents(events)) == events[k].image
  {
    var p := (e: Event) => e.status == Running;
    assert events == events[..k] + events[k..];
    FilterAppend(p, events[..k], events[k..]);
    FilterNone(p, events[..k]);
    assert events[k..] == [events[k]] + events[k + 1..];
    FilterAppend(p, [events[k]], events[k + 1..]);
    assert [events[k]][1..] == [];
  }

  datatype ListItem = ListItem(position: nat, item: SeoData.EventSchema)

  /** The ItemList schema's entries: every event in document order,
      numbered from 1. */
  function ItemList(events: seq<Event>): (r: seq<ListItem>)
    ensures |r| == |events|
    ensures forall i :: 0 <= i < |r| ==> r[i].position == i + 1 && r[i].item == SeoData.GetEventSchema(events[i])
  {
    seq(|events|, i requires 0 <= i < |events| => ListItem(i + 1, SeoData.GetEventSchema(events[i])))
  }

  // ---------------------------------------------------------------------
  // The page
  // ---------------------------------------------------------------------

  datatype View =
    | LoadingView
    | ErrorView
    | ListingView(
        meta: SeoData.MetaTags,
        items: seq<ListItem>,
        activeSection: Option<seq<Event>>,
        pastSection: Option<seq<Event>>)

  /** The page for a load state; `href` is `window.location.href`, None
      where there is no window. */
  function Render(state: Load<EventData>, href: Option<string>): (v: View)
    ensures state.Loading? <==> v.LoadingView?
    ensures state.Failed? <==> v.ErrorView?
    ensures state.Loaded? ==> v.ListingView?
  {
    match state
    case Loading => LoadingView
    case Failed => ErrorView
    case Loaded(data) =>
      var seo := SeoData.GetPageSeo(SeoData.EventsKey);
      var active := ActiveEvents(data.events);
      var past := PastEvents(data.events);
      var url := match href case Some(h) => h case None => seo.url;
      var meta := SeoData.GetMetaTags(SeoData.MetaConfig(
        seo.title, Description(|active|), url, OgImage(active), seo.keywords, None));
      ListingView(
        meta,
        ItemList(data.events),
        if |active| > 0 then Some(active) else None,
        if |past| > 0 then Some(past) else None)
  }

  /** A loaded document shows each section exactly when its list is
      non-empty, with that list's events, and describes itself by the
      active list. */
  lemma LoadedSections(data: EventData, href: Option<string>)
    ensures var v := Render(Loaded(data), href);
      && v.ListingView?
      && (v.activeSection.Some? <==> |ActiveEvents(data.events)| > 0)
      && (v.activeSection.Some? ==> v.activeSection.value == ActiveEvents(data.events))
      && (v.pastSection.Some? <==> |PastEvents(data.events)| > 0)
      && (v.pastSection.Some? ==> v.pastSection.value == PastEvents(data.events))
      && v.meta.meta.title == SeoData.GetPageSeo(SeoData.EventsKey).title
      && v.meta.meta.description == Description(|ActiveEvents(data.events)|)
      && v.meta.meta.keywords == SeoData.GetPageSeo(SeoData.EventsKey).keywords
      && v.meta.og.image == OgImage(ActiveEvents(data.events))
      && v.meta.og.kind == "website"
      && v.items == ItemList(data.events)
      && v.meta.og.url == (if href.Some? then href.value else SeoData.GetPageSeo(SeoData.EventsKey).url)
  {
  }
}

=== FILE: member_card.dfy ===
/** The member card (src/components/MemberCard.tsx): the member's Person
    schema, a photo or a placeholder, a row of contact icons, the name and a
    one-line subtitle. */
module MemberCard {
  import opened Values
  import opened Text
  import opened Seqs
  import opened Types
  import SeoData

  // ---------------------------------------------------------------------
  // The subtitle
  // ---------------------------------------------------------------------

  /** `member.college_year ? "Year " + member.college_year : ""`. */
  function YearText(collegeYear: Option<int>): (r: string)
    ensures r == "" <==> !NonZero(collegeYear)
    ensures NonZero(collegeYear) ==> |r| > 5 && r[..5] == "Year "
    ensures NonZero(collegeYear) && collegeYear.value > 0 ==> AllDigits(r[5..]) && Value(r[5..]) == collegeYear.value
  {
    if NonZero(collegeYear) then
      if collegeYear.value > 0 then ValueOfNatToString(collegeYear.value); "Year " + IntToString(collegeYear.value)
      else "Year " + IntToString(collegeYear.value)
    else ""
  }

  /** The line under the name: the title if there is one, else the
      department, else the college year (when known) and the member's type,
      separated by a space. */
  function Subtitle(m: Member): (r: string)
    ensures Present(m.title) ==> r == m.title.value
    ensures !Present(m.title) && Present(m.department) ==> r == m.department.value
    ensures !Present(m.title) && !Present(m.department) ==> r == YearText(m.collegeYear) + " " + m.role
  {
    if Present(m.title) then m.title.value
    else if Present(m.department) then m.department.value
    else YearText(m.collegeYear) + " " + m.role
  }

  /** The subtitle line is never blank: the fallback always holds at least
      the separating space. */
  lemma SubtitleNeverEmpty(m: Member)
    ensures |Subtitle(m)| > 0
  {
  }

  /** In the fallback the line ends with the member's type after a space,
      and starts with "Year " exactly when a non-zero college year is known;
      without one the line starts with that space. */
  lemma SubtitleFallback(m: Member)
    requires !Present(m.title) && !Present(m.department)
    ensures var r := Subtitle(m);
      && |r| > |m.role|
      && r[|r| - |m.role| - 1..] == " " + m.role
      && (|r| >= 5 && r[..5] == "Year " <==> NonZero(m.collegeYear))
      && (!NonZero(m.collegeYear) ==> r == " " + m.role)
  {
    var r := Subtitle(m);
    var y := YearText(m.collegeYear);
    var tail := " " + m.role;
    assert r == y + tail;
    assert r[|y|..] == tail;
    if NonZero(m.collegeYear) {
      var d := IntToString(m.collegeYear.value);
      assert r == "Year " + (d + tail);
      assert r[..5] == "Year ";
    } else {
      assert r == tail;
      assert r[0] == ' ';
    }
  }

  /** A member with a title shows it, whatever else is known; one with
      neither title nor department but a college year shows the year and
      the type. */
  lemma SubtitleExamples(m: Member)
    ensures m.title == Some("Lead") && m.department == Some("CS") ==> Subtitle(m) == "Lead"
    ensures (m.title.None? && m.department.None? && m.collegeYear == Some(2) && m.role == "Member") ==>
              Subtitle(m) == "Year 2 Member"
  {
    if m.title.None? && m.department.None? && m.collegeYear == Some(2) && m.role == "Member" {
      assert NatToString(2) == "2";
    }
  }

  /** The college year is read back from the subtitle when it is shown:
      members of different non-zero years get different subtitles. */
  lemma SubtitleDistinguishesYears(m: Member, y1: int, y2: int)
    requires !Present(m.title) && !Present(m.department) && y1 != 0 && y2 != 0
    requires Subtitle(m.(collegeYear := Some(y1))) == Subtitle(m.(collegeYear := Some(y2)))
    ensures y1 == y2
  {
    var tail := " " + m.role;
    var s1, s2 := Subtitle(m.(collegeYear := Some(y1))), Subtitle(m.(collegeYear := Some(y2)));
    var t1, t2 := YearText(Some(y1)), YearText(Some(y2));
    assert s1 == t1 + tail && s2 == t2 + tail;
    assert t1 == s1[..|s1| - |tail|] && t2 == s2[..|s2| - |tail|];
    assert t1 == "Year " + IntToString(y1) && t2 == "Year " + IntToString(y2);
    assert IntToString(y1) == t1[5..] && IntToString(y2) == t2[5..];
    IntToStringInjective(y1, y2);
  }

  // ---------------------------------------------------------------------
  // Contact icons
  // ---------------------------------------------------------------------

  /** The networks that get an icon on the card; Facebook and Twitter do
      not, although the Person schema lists them. */
  predicate ShownOnCard(n: Network) {
    n != Facebook && n != Twitter
  }

  predicate OnCard(l: SocialLink) {
    ShownOnCard(l.network)
  }

  /** The icon of one network, when the member lists a non-empty link. */
  function Icon(socials: Option<Socials>, n: Network): (r: seq<SocialLink>)
    ensures |r| <= 1
    ensures forall l :: l in r ==> l.network == n
    ensures |r| == 1 <==> socials.Some? && Present(Link(socials.value, n))
    ensures |r| == 1 ==> r[0] == SocialLink(n, Link(socials.value, n).value)
  {
    match socials
    case None => []
    case Some(s) => if Present(Link(s, n)) then [SocialLink(n, Link(s, n).value)] else []
  }

  /** The social icons in the order the card lays them out: GitHub,
      LinkedIn, Instagram, website. */
  function CardLinks(socials: Option<Socials>): (r: seq<SocialLink>)
    ensures |r| <= 4
    ensures forall l :: l in r ==> ShownOnCard(l.network)
  {
    Icon(socials, GitHub) + Icon(socials, LinkedIn) + Icon(socials, Instagram) + Icon(socials, Website)
  }

  /** The link of the network ranked k, when present, in front of those
      ranked later. */
  lemma LinksFromStep(s: Socials, k: nat)
    requires k < 6
    ensures LinksFrom(s, k) == Icon(Some(s), NetworkAt(k)) + LinksFrom(s, k + 1)
  {
  }

  lemma FilterIcon(socials: Option<Socials>, n: Network)
    ensures Filter(OnCard, Icon(socials, n)) == if ShownOnCard(n) then Icon(socials, n) else []
  {
    var r := Icon(socials, n);
    if |r| == 1 {
      assert r[1..] == [];
    }
  }

  /** Filtering the links ranked k or later for the card keeps the k-th
      network's link when the card shows that network ... */
  lemma FilterStepShown(s: Socials, k: nat, n: Network)
    requires k < 6 && n == NetworkAt(k) && ShownOnCard(n)
    ensures Filter(OnCard, LinksFrom(s, k)) == Icon(Some(s), n) + Filter(OnCard, LinksFrom(s, k + 1))
  {
    LinksFromStep(s, k);
    FilterAppend(OnCard, Icon(Some(s), n), LinksFrom(s, k + 1));
    FilterIcon(Some(s), n);
  }

  /** ... and drops it when the card does not. */
  lemma FilterStepHidden(s: Socials, k: nat, n: Network)
    requires k < 6 && n == NetworkAt(k) && !ShownOnCard(n)
    ensures Filter(OnCard, LinksFrom(s, k)) == Filter(OnCard, LinksFrom(s, k + 1))
  {
    LinksFromStep(s, k);
    FilterAppend(OnCard, Icon(Some(s), n), LinksFrom(s, k + 1));
    FilterIcon(Some(s), n);
  }

  /** Of the links ranked Facebook or later only the website's is shown. */
  lemma FilterFromFacebook(s: Socials)
    ensures Filter(OnCard, LinksFrom(s, 3)) == Icon(Some(s), Website)
  {
    FilterStepShown(s, 5, Website);
    assert LinksFrom(s, 6) == [];
    assert Filter(OnCard, LinksFrom(s, 6)) == [];
    assert Icon(Some(s), Website) + [] == Icon(Some(s), Website);
    FilterStepHidden(s, 4, Twitter);
    FilterStepHidden(s, 3, Facebook);
  }

  lemma FilterFromInstagram(s: Socials)
    ensures Filter(OnCard, LinksFrom(s, 2)) == Icon(Some(s), Instagram) + Icon(Some(s), Website)
  {
    FilterFromFacebook(s);
    FilterStepShown(s, 2, Instagram);
  }

  lemma FilterFromLinkedIn(s: Socials)
    ensures Filter(OnCard, LinksFrom(s, 1))
         == Icon(Some(s), LinkedIn) + (Icon(Some(s), Instagram) + Icon(Some(s), Website))
  {
    FilterFromInstagram(s);
    FilterStepShown(s, 1, LinkedIn);
  }

  lemma FilterFromGitHub(s: Socials)
    ensures Filter(OnCard, LinksFrom(s, 0))
         == Icon(Some(s), GitHub) + (Icon(Some(s), LinkedIn) + (Icon(Some(s), Instagram) + Icon(Some(s), Website)))
  {
    FilterFromLinkedIn(s);
    FilterStepShown(s, 0, GitHub);
  }

  lemma CardLinksNested(s: Socials)
    ensures CardLinks(Some(s))
         == Icon(Some(s), GitHub) + (Icon(Some(s), LinkedIn) + (Icon(Some(s), Instagram) + Icon(Some(s), Website)))
  {
    Associate(Icon(Some(s), GitHub), Icon(Some(s), LinkedIn), Icon(Some(s), Instagram), Icon(Some(s), Website));
  }

  /** The card's social icons are the Person schema's links without the
      Facebook and Twitter ones, in the same order. */
  lemma CardLinksAreSchemaLinksOnCard(socials: Option<Socials>)
    ensures CardLinks(socials) == Filter(OnCard, SocialLinks(socials))
  {
    match socials
    case None =>
    case Some(s) =>
      CardLinksNested(s);
      FilterFromGitHub(s);
  }

  /** The card's social icons come in the order GitHub, LinkedIn,
      Instagram, website, and Facebook and Twitter never get one. */
  lemma CardLinksOrdered(socials: Option<Socials>)
    ensures Increasing((l: SocialLink) => NetworkRank(l.network), CardLinks(socials))
    ensures forall i :: 0 <= i < |CardLinks(socials)| ==> ShownOnCard(CardLinks(socials)[i].network)
  {
    var links := SocialLinks(socials);
    assert Increasing((l: SocialLink) => NetworkRank(l.network), links);
    CardLinksAreSchemaLinksOnCard(socials);
    FilterKeepsOrder(OnCard, (l: SocialLink) => NetworkRank(l.network), SocialLinks(socials));
  }

  /** Every social icon carries the member's non-empty link for its
      network ... */
  lemma CardLinksSound(socials: Option<Socials>)
    ensures forall i :: 0 <= i < |CardLinks(socials)| ==>
              socials.Some? && Link(socials.value, CardLinks(socials)[i].network) == Some(CardLinks(socials)[i].url)
              && CardLinks(socials)[i].url != ""
  {
    var links := SocialLinks(socials);
    var r := CardLinks(socials);
    CardLinksAreSchemaLinksOnCard(socials);
    forall i | 0 <= i < |r|
      ensures socials.Some? && Link(socials.value, r[i].network) == Some(r[i].url) && r[i].url != ""
    {
      assert r[i] in links;
      var k :| 0 <= k < |links| && links[k] == r[i];
    }
  }

  /** ... and every network the card shows gets its icon when the member
      lists a non-empty link for it. */
  lemma CardLinksComplete(socials: Option<Socials>, n: Network)
    requires ShownOnCard(n) && socials.Some? && Present(Link(socials.value, n))
    ensures SocialLink(n, Link(socials.value, n).value) in CardLinks(socials)
  {
    var r := CardLinks(socials);
    var one := Icon(socials, n);
    assert one[0] in one;
    assert r == Icon(socials, GitHub) + Icon(socials, LinkedIn) + Icon(socials, Instagram) + Icon(socials, Website);
  }

  /** One icon of the contact row. */
  datatype Contact = Mail(href: string) | Social(link: SocialLink)

  /** The mail icon, when the member has an address, then the social
      icons. */
  function Contacts(m: Member): (r: seq<Contact>)
    ensures |r| == (if m.email != "" then 1 else 0) + |CardLinks(m.socials)|
    ensures m.email != "" ==> r[0] == Mail("mailto:" + m.email)
    ensures var k := if m.email != "" then 1 else 0;
      forall i :: k <= i < |r| ==> r[i] == Social(CardLinks(m.socials)[i - k])
  {
    var links := CardLinks(m.socials);
    (if m.email != "" then [Mail("mailto:" + m.email)] else [])
      + seq(|links|, i requires 0 <= i < |links| => Social(links[i]))
  }

  /** Every social icon the card shows is also in the Person schema's
      `sameAs`, and the two lists differ only by the Facebook and Twitter
      links. */
  lemma ContactsWithinSameAs(m: Member, i: nat)
    requires i < |Contacts(m)| && Contacts(m)[i].Social?
    ensures Contacts(m)[i].link.url in SeoData.GetPersonSchema(m).sameAs
    ensures ShownOnCard(Contacts(m)[i].link.network)
  {
    var links := SocialLinks(m.socials);
    CardLinksAreSchemaLinksOnCard(m.socials);
    var l := Contacts(m)[i].link;
    assert l in CardLinks(m.socials);
    assert l in links;
    var j :| 0 <= j < |links| && links[j] == l;
    assert SeoData.GetPersonSchema(m).sameAs[j] == l.url;
  }

  // ---------------------------------------------------------------------
  // The card
  // ---------------------------------------------------------------------

  /** The photo, described by the member's name, or the placeholder
      silhouette when there is no photo. */
  datatype Portrait = Photo(src: string, alt: string) | Placeholder

  datatype Card = Card(
    schema: SeoData.PersonSchema,
    portrait: Portrait,
    contacts: seq<Contact>,
    name: string,
    subtitle: string)

  function Render(m: Member): (c: Card)
    ensures c.schema == SeoData.GetPersonSchema(m)
    ensures c.portrait.Photo? <==> m.photo != ""
    ensures c.portrait.Photo? ==> c.portrait == Photo(m.photo, m.name)
    ensures c.portrait.Photo? <==> c.schema.image.Some?
    ensures c.contacts == Contacts(m) && c.name == m.name && c.subtitle == Subtitle(m)
  {
    Card(
      SeoData.GetPersonSchema(m),
      if m.photo != "" then Photo(m.photo, m.name) else Placeholder,
      Contacts(m),
      m.name,
      Subtitle(m))
  }
}

=== FILE: seo_data.dfy ===
/** The site's search-engine metadata (src/config/seoData.ts): the site
    constants, the per-page entries, and the record builders the pages and
    cards call. Each builder is a pure map from a record to a record; the
    JSON-LD "@context"/"@type" keys are constants of the output shape and are
    not represented. */
module SeoData {
  import opened Values
  import Types

  const SiteName := "CITC"
  const SiteFullName := "Computer Engineering Innovation & Tech Club (CITC)"
  const SiteUrl := "https://citc.ncit.edu.np"
  const SiteCountry := "NP"

  // ---------------------------------------------------------------------
  // Per-page entries
  // ---------------------------------------------------------------------

  datatype PageKey = HomeKey | TeamKey | EventsKey | JoinKey

  datatype PageEntry = PageEntry(title: string, description: string, keywords: string, ogImage: string)

  /** The route of each page. */
  function Path(k: PageKey): string
  {
    match k
    case HomeKey => "/"
    case TeamKey => "/team"
    case EventsKey => "/events"
    case JoinKey => "/join"
  }

  const HomeTitle := "CITC | Tech Community at NCIT"
  const HomeDescription := "Join CITC (Computer Engineering Innovation & Tech Club) - the premier tech community at Nepal College of Information Technology. Discover workshops, events, hackathons, and networking opportunities for aspiring tech enthusiasts."
  const HomeKeywords := "CITC, computer club,ncit club,ncit tech club,ncit tech community, IT club, tech community, NCIT, Nepal College, workshops, hackathons, tech events, programming, coding club"

  const TeamTitle := "Our Team - CITC | Meet the Club Leaders"
  const TeamDescription := "Meet the passionate team members of Computer Engineering Innovation & Tech Club (CITC) - Executive Committee, Mentors, Faculty Advisors, and Patron driving innovation and tech education."
  const TeamKeywords := "CITC team, computer club, tech club members, NCIT tech community, student tech leaders, executive committee"

  const EventsTitle := "Events & Workshops - CITC | Tech Events at NCIT"
  const EventsDescription := "Explore upcoming tech events and workshops at CITC. Join hackathons, coding competitions, seminars, and networking sessions to enhance your tech skills."
  const EventsKeywords := "tech events, workshops, hackathons, coding competitions, tech seminars, CITC events, NCIT tech community"

  const JoinTitle := "Join CITC - Club Membership Registration"
  const JoinDescription := "Reserve your spot and join CITC (Computer Engineering Innovation & Tech Club) at NCIT. Fill out our membership form to become part of our thriving tech community and access exclusive workshops, events, and networking opportunities."
  const JoinKeywords := "join CITC, club membership, CITC registration, tech club join, NCIT tech community membership, student club registration"

  /** Every page shares one social-preview image. */
  const DefaultOgImage := "/media/og-team.avif"

  /** The static table of page texts. */
  function Entry(k: PageKey): PageEntry
  {
    match k
    case HomeKey => PageEntry(HomeTitle, HomeDescription, HomeKeywords, DefaultOgImage)
    case TeamKey => PageEntry(TeamTitle, TeamDescription, TeamKeywords, DefaultOgImage)
    case EventsKey => PageEntry(EventsTitle, EventsDescription, EventsKeywords, DefaultOgImage)
    case JoinKey => PageEntry(JoinTitle, JoinDescription, JoinKeywords, DefaultOgImage)
  }

  datatype PageSeo = PageSeo(
    title: string,
    description: string,
    keywords: string,
    ogImage: string,
    path: string,
    url: string,
    siteName: string,
    author: string)

  /** `getPageSEO`: the page's entry, kept field for field, plus its
      absolute URL and the site's name and author. */
  function GetPageSeo(k: PageKey): (r: PageSeo)
    ensures r.url == SiteUrl + r.path
    ensures |r.path| >= 1 && r.path[0] == '/'
    ensures var e := Entry(k);
      r.title == e.title && r.description == e.description && r.keywords == e.keywords
      && r.ogImage == e.ogImage && r.path == Path(k)
    ensures r.siteName == SiteName && r.author == SiteFullName
  {
    var e := Entry(k);
    PageSeo(e.title, e.description, e.keywords, e.ogImage, Path(k), SiteUrl + Path(k), SiteName, SiteFullName)
  }

  /** Every page has its own canonical URL. */
  lemma PageUrlsDistinct(a: PageKey, b: PageKey)
    ensures a != b ==> GetPageSeo(a).url != GetPageSeo(b).url
  {
    var ua, ub := GetPageSeo(a).url, GetPageSeo(b).url;
    if a != b {
      assert Path(a) != Path(b);
      assert ua[|SiteUrl|..] == Path(a) && ub[|SiteUrl|..] == Path(b);
    }
  }

  // ---------------------------------------------------------------------
  // Person schema
  // ---------------------------------------------------------------------

  datatype PersonSchema = PersonSchema(
    name: string,
    email: string,
    image: Option<string>,
    jobTitle: Option<string>,
    affiliation: Option<string>,
    sameAs: seq<string>)

  /** `getPersonSchema`: optional keys appear exactly when the member's
      field is non-empty; `sameAs` lists the non-empty social links in the
      order github, linkedin, instagram, facebook, twitter, website. */
  function GetPersonSchema(m: Types.Member): (r: PersonSchema)
    ensures r.name == m.name && r.email == m.email
    ensures r.image.Some? <==> m.photo != ""
    ensures r.image.Some? ==> r.image.value == m.photo
    ensures r.jobTitle.Some? <==> Present(m.title)
    ensures r.jobTitle.Some? ==> r.jobTitle == m.title
    ensures r.affiliation.Some? <==> Present(m.department)
    ensures r.affiliation.Some? ==> r.affiliation == m.department
    ensures var links := Types.SocialLinks(m.socials);
      |r.sameAs| == |links| && forall i :: 0 <= i < |links| ==> r.sameAs[i] == links[i].url
    ensures forall i :: 0 <= i < |r.sameAs| ==> r.sameAs[i] != ""
  {
    PersonSchema(
      m.name,
      m.email,
      if m.photo != "" then Some(m.photo) else None,
      if Present(m.title) then m.title else None,
      if Present(m.department) then m.department else None,
      seq(|Types.SocialLinks(m.socials)|, i requires 0 <= i < |Types.SocialLinks(m.socials)| =>
        Types.SocialLinks(m.socials)[i].url))
  }

  /** A link the member lists for a network ends up in `sameAs`, and
      nothing else does. */
  lemma SameAsIsExactlyThePresentLinks(m: Types.Member, s: Types.Socials, n: Types.Network)
    requires m.socials == Some(s)
    ensures Present(Types.Link(s, n)) ==> Types.Link(s, n).value in GetPersonSchema(m).sameAs
    ensures forall u :: u in GetPersonSchema(m).sameAs ==>
              exists k: Types.Network :: Types.Link(s, k) == Some(u) && u != ""
  {
    var links := Types.SocialLinks(m.socials);
    var r := GetPersonSchema(m);
    if Present(Types.Link(s, n)) {
      var l := Types.SocialLink(n, Types.Link(s, n).value);
      assert l in links;
      var i :| 0 <= i < |links| && links[i] == l;
      assert r.sameAs[i] == l.url;
    }
    forall u | u in r.sameAs
      ensures exists k: Types.Network :: Types.Link(s, k) == Some(u) && u != ""
    {
      var i :| 0 <= i < |r.sameAs| && r.sameAs[i] == u;
      assert Types.Link(s, links[i].network) == Some(u);
    }
  }

  // ---------------------------------------------------------------------
  // Event schema
  // ---------------------------------------------------------------------

  datatype Place = Place(name: string, addressCountry: string)
  datatype Organization = Organization(name: string, url: string)
  datatype Offer = Offer(url: string, price: string, priceCurrency: string, availability: string, validFrom: string)

  datatype EventSchema = EventSchema(
    name: string,
    description: string,
    image: string,
    startDate: string,
    startTime: string,
    location: Place,
    eventStatus: string,
    attendanceMode: string,
    organizer: Organization,
    offers: Option<Offer>)

  const Scheduled := "https://schema.org/EventScheduled"
  const Postponed := "https://schema.org/EventPostponed"

  /** `getEventSchema`. */
  function GetEventSchema(e: Types.Event): (r: EventSchema)
    ensures r.name == e.title && r.description == e.description && r.image == e.image
    ensures r.startDate == e.date && r.startTime == e.time
    ensures r.location == Place(e.location, SiteCountry)
    ensures r.eventStatus == Scheduled <==> e.status != Types.Past
    ensures r.eventStatus == Postponed <==> e.status == Types.Past
    ensures r.organizer == Organization(SiteFullName, SiteUrl)
    ensures r.offers.Some? <==> Present(e.registrationLink)
    ensures r.offers.Some? ==>
      r.offers.value.url == e.registrationLink.value && r.offers.value.price == "0"
      && r.offers.value.priceCurrency == "NPR" && r.offers.value.validFrom == e.date
  {
    var name := Types.StatusName(e.status);
    EventSchema(
      e.title,
      e.description,
      e.image,
      e.date,
      e.time,
      Place(e.location, SiteCountry),
      if name == "running" || name == "upcoming" then Scheduled else Postponed,
      "https://schema.org/OfflineEventAttendanceMode",
      Organization(SiteFullName, SiteUrl),
      if Present(e.registrationLink)
      then Some(Offer(e.registrationLink.value, "0", "NPR", "https://schema.org/InStock", e.date))
      else None)
  }

  // ---------------------------------------------------------------------
  // Meta tags
  // ---------------------------------------------------------------------

  datatype MetaConfig = MetaConfig(
    title: string,
    description: string,
    url: string,
    image: string,
    keywords: string,
    kind: Option<string>)

  datatype Meta = Meta(title: string, description: string, keywords: string, author: string, robots: string)
  datatype OpenGraph = OpenGraph(kind: string, url: string, title: string, description: string, image: string, siteName: string)
  datatype TwitterCard = TwitterCard(card: string, url: string, title: string, description: string, image: string)
  datatype MetaTags = MetaTags(title: string, meta: Meta, og: OpenGraph, twitter: TwitterCard)

  /** The three renderings of a page agree on what the page is. */
  predicate Consistent(t: MetaTags) {
    && t.meta.title == t.title && t.og.title == t.title && t.twitter.title == t.title
    && t.og.description == t.meta.description && t.twitter.description == t.meta.description
    && t.twitter.url == t.og.url
    && t.twitter.image == t.og.image
  }

  /** `getMetaTags`. */
  function GetMetaTags(c: MetaConfig): (r: MetaTags)
    ensures Consistent(r)
    ensures r.title == c.title && r.meta.description == c.description
    ensures r.og.url == c.url && r.og.image == c.image && r.meta.keywords == c.keywords
    ensures r.meta.robots == "index, follow" && r.twitter.card == "summary_large_image"
    ensures r.meta.author == SiteFullName && r.og.siteName == SiteName
    ensures Present(c.kind) ==> r.og.kind == c.kind.value
    ensures !Present(c.kind) ==> r.og.kind == "website"
  {
    MetaTags(
      c.title,
      Meta(c.title, c.description, c.keywords, SiteFullName, "index, follow"),
      OpenGraph(if Present(c.kind) then c.kind.value else "website", c.url, c.title, c.description, c.image, SiteName),
      TwitterCard("summary_large_image", c.url, c.title, c.description, c.image))
  }
}

=== FILE: seqs.dfy ===
/** `Array.prototype.filter`, the one collection operation every page uses,
    with the facts the pages need about it. */
module Seqs {

  /** The elements of s satisfying p, in their original order. */
  function Filter<T>(p: T -> bool, s: seq<T>): (r: seq<T>)
    ensures |r| <= |s|
    ensures forall i :: 0 <= i < |r| ==> p(r[i])
    ensures forall i :: 0 <= i < |r| ==> r[i] in s
    ensures forall i :: 0 <= i < |s| && p(s[i]) ==> s[i] in r
  {
    if s == [] then []
    else if p(s[0]) then [s[0]] + Filter(p, s[1..])
    else Filter(p, s[1..])
  }

  /** Filtering distributes over concatenation: each part is filtered in
      place, which is what "order-preserving" means. */
  lemma {:induction false} FilterAppend<T>(p: T -> bool, a: seq<T>, b: seq<T>)
    ensures Filter(p, a + b) == Filter(p, a) + Filter(p, b)
    decreases |a|
  {
    if a != [] {
      assert (a + b)[0] == a[0] && (a + b)[1..] == a[1..] + b;
      FilterAppend(p, a[1..], b);
      if p(a[0]) {
        assert Filter(p, a + b) == [a[0]] + (Filter(p, a[1..]) + Filter(p, b));
      }
    } else {
      assert a + b == b;
    }
  }

  /** Nothing survives a filter no element passes. */
  lemma {:induction false} FilterNone<T>(p: T -> bool, s: seq<T>)
    requires forall i :: 0 <= i < |s| ==> !p(s[i])
    ensures Filter(p, s) == []
    decreases |s|
  {
    if s != [] {
      FilterNone(p, s[1..]);
    }
  }

  /** Every occurrence of a satisfying element is kept, every other one is
      dropped. */
  lemma {:induction false} FilterMultiset<T>(p: T -> bool, s: seq<T>, x: T)
    ensures multiset(Filter(p, s))[x] == if p(x) then multiset(s)[x] else 0
    decreases |s|
  {
    if s != [] {
      assert s == [s[0]] + s[1..];
      FilterMultiset(p, s[1..], x);
    }
  }

  /** Regrouping a concatenation of four pieces to the right. */
  lemma Associate<T>(a: seq<T>, b: seq<T>, c: seq<T>, d: seq<T>)
    ensures a + b + c + d == a + (b + (c + d))
  {
  }

  /** s is strictly increasing by key. */
  predicate Increasing<T>(key: T -> int, s: seq<T>)
  {
    forall i, j :: 0 <= i < j < |s| ==> key(s[i]) < key(s[j])
  }

  lemma IncreasingCons<T>(key: T -> int, x: T, s: seq<T>)
    requires Increasing(key, s)
    requires forall i :: 0 <= i < |s| ==> key(x) < key(s[i])
    ensures Increasing(key, [x] + s)
  {
    var r := [x] + s;
    forall i, j | 0 <= i < j < |r|
      ensures key(r[i]) < key(r[j])
    {
      assert r[j] == s[j - 1];
      if i > 0 {
        assert r[i] == s[i - 1];
      }
    }
  }

  lemma IncreasingTail<T>(key: T -> int, s: seq<T>)
    requires |s| > 0 && Increasing(key, s)
    ensures Increasing(key, s[1..])
    ensures forall i :: 0 <= i < |s[1..]| ==> key(s[0]) < key(s[1..][i])
  {
    forall i | 0 <= i < |s[1..]|
      ensures key(s[0]) < key(s[1..][i])
    {
      assert s[1..][i] == s[i + 1];
    }
    forall i, j | 0 <= i < j < |s[1..]|
      ensures key(s[1..][i]) < key(s[1..][j])
    {
      assert s[1..][i] == s[i + 1] && s[1..][j] == s[j + 1];
    }
  }

  /** Everything a filter keeps lies above any bound its input lies above. */
  lemma FilterAbove<T>(p: T -> bool, key: T -> int, s: seq<T>, b: int)
    requires forall i :: 0 <= i < |s| ==> b < key(s[i])
    ensures forall i :: 0 <= i < |Filter(p, s)| ==> b < key(Filter(p, s)[i])
  {
    var r := Filter(p, s);
    forall i | 0 <= i < |r|
      ensures b < key(r[i])
    {
      assert r[i] in s;
      var k :| 0 <= k < |s| && s[k] == r[i];
    }
  }

  /** A filter keeps the order of what it keeps: a list strictly increasing
      by some key stays strictly increasing. */
  lemma {:induction false} FilterKeepsOrder<T>(p: T -> bool, key: T -> int, s: seq<T>)
    requires Increasing(key, s)
    ensures Increasing(key, Filter(p, s))
    decreases |s|
  {
    if s != [] {
      IncreasingTail(key, s);
      FilterKeepsOrder(p, key, s[1..]);
      if p(s[0]) {
        FilterAbove(p, key, s[1..], key(s[0]));
        IncreasingCons(key, s[0], Filter(p, s[1..]));
        assert Filter(p, s) == [s[0]] + Filter(p, s[1..]);
      }
    }
  }
}

=== FILE: team_page.dfy ===
/** The team listing (src/pages/TeamPage.tsx): one section per team, in the
    order the content file lists the teams, holding that team's members in
    the order the file lists the members. Teams without members get no
    section, and nothing sorts or groups the members further. */
module TeamPage {
  import opened Seqs
  import opened Types

  /** `getTeamMembers(teamId)`: the members whose team id is `teamId`, in
      document order. */
  function TeamMembers(members: seq<Member>, teamId: string): (r: seq<Member>)
    ensures forall i :: 0 <= i < |r| ==> r[i].teamId == teamId && r[i] in members
    ensures forall i :: 0 <= i < |members| && members[i].teamId == teamId ==> members[i] in r
  {
    Filter((m: Member) => m.teamId == teamId, members)
  }

  /** A member belongs to exactly one team's list: the one its team id
      names. */
  lemma TeamMembersIff(members: seq<Member>, teamId: string, m: Member)
    requires m in members
    ensures m in TeamMembers(members, teamId) <==> m.teamId == teamId
  {
    var i :| 0 <= i < |members| && members[i] == m;
  }

  datatype Section = Section(team: Team, members: seq<Member>)

  /** Whether a team has anyone to show. */
  function HasMembers(members: seq<Member>): Team -> bool
  {
    (t: Team) => |TeamMembers(members, t.id)| > 0
  }

  /** `teamData.teams.map(...)` with the teams whose list is empty
      rendering nothing. */
  function Sections(teams: seq<Team>, members: seq<Member>): (r: seq<Section>)
    ensures |r| <= |teams|
    ensures forall i :: 0 <= i < |r| ==> r[i].team in teams
    ensures forall i :: 0 <= i < |r| ==> r[i].members == TeamMembers(members, r[i].team.id)
    ensures forall i :: 0 <= i < |r| ==> |r[i].members| > 0
    decreases |teams|
  {
    if teams == [] then []
    else
      var shown := TeamMembers(members, teams[0].id);
      var rest := Sections(teams[1..], members);
      if |shown| > 0 then [Section(teams[0], shown)] + rest else rest
  }

  function SectionTeams(sections: seq<Section>): (r: seq<Team>)
    ensures |r| == |sections|
    ensures forall i :: 0 <= i < |r| ==> r[i] == sections[i].team
  {
    seq(|sections|, i requires 0 <= i < |sections| => sections[i].team)
  }

  /** The sections are the teams that have members, in document order. */
  lemma {:induction false} SectionsFollowTeams(teams: seq<Team>, members: seq<Member>)
    ensures SectionTeams(Sections(teams, members)) == Filter(HasMembers(members), teams)
    decreases |teams|
  {
    if teams != [] {
      SectionsFollowTeams(teams[1..], members);
      var shown := TeamMembers(members, teams[0].id);
      var rest := Sections(teams[1..], members);
      if |shown| > 0 {
        assert HasMembers(members)(teams[0]);
        assert SectionTeams([Section(teams[0], shown)] + rest) == [teams[0]] + SectionTeams(rest);
      } else {
        assert !HasMembers(members)(teams[0]);
      }
    }
  }

  /** Whether a member's card appears in some section. */
  predicate Shown(sections: seq<Section>, m: Member)
  {
    exists i :: 0 <= i < |sections| && m in sections[i].members
  }

  /** A member of the document is shown exactly when some listed team has
      its team id; a member whose team is not listed appears nowhere. */
  lemma MemberShownIff(teams: seq<Team>, members: seq<Member>, m: Member)
    requires m in members
    ensures Shown(Sections(teams, members), m) <==> exists t :: t in teams && t.id == m.teamId
  {
    var r := Sections(teams, members);
    if Shown(r, m) {
      var i :| 0 <= i < |r| && m in r[i].members;
      TeamMembersIff(members, r[i].team.id, m);
      assert r[i].team in teams && r[i].team.id == m.teamId;
    }
    if exists t :: t in teams && t.id == m.teamId {
      var t :| t in teams && t.id == m.teamId;
      TeamMembersIff(members, t.id, m);
      assert HasMembers(members)(t);
      SectionsFollowTeams(teams, members);
      var k :| 0 <= k < |teams| && teams[k] == t;
      assert t in SectionTeams(r);
      var i :| 0 <= i < |r| && SectionTeams(r)[i] == t;
      assert m in r[i].members;
    }
  }

  /** Each section lists exactly its team's members, in document order:
      the list of a split document is the concatenation of the parts'
      lists, and one member contributes itself exactly when it has the
      team's id, once. */
  lemma SectionMembersInDocumentOrder(teams: seq<Team>, members: seq<Member>, i: nat, a: seq<Member>, b: seq<Member>, m: Member)
    requires i < |Sections(teams, members)| && members == a + b
    ensures var s := Sections(teams, members)[i];
      s.members == TeamMembers(a, s.team.id) + TeamMembers(b, s.team.id)
    ensures var s := Sections(teams, members)[i];
      TeamMembers([m], s.team.id) == if m.teamId == s.team.id then [m] else []
  {
    var s := Sections(teams, members)[i];
    FilterAppend((x: Member) => x.teamId == s.team.id, a, b);
    assert [m][1..] == [];
  }

  datatype View = LoadingView | ErrorView | TeamsView(sections: seq<Section>)

  /** The page for a load state: a spinner, "Failed to load team data.", or
      the sections. */
  function Render(state: Load<TeamData>): (v: View)
    ensures state.Loading? <==> v.LoadingView?
    ensures state.Failed? <==> v.ErrorView?
    ensures state.Loaded? ==> v.TeamsView? && SectionTeams(v.sections) == Filter(HasMembers(state.data.members), state.data.teams)
  {
    match state
    case Loading => LoadingView
    case Failed => ErrorView
    case Loaded(data) =>
      SectionsFollowTeams(data.teams, data.members);
      TeamsView(Sections(data.teams, data.members))
  }
}

=== FILE: text.dfy ===
/** The handful of JavaScript string operations the components rely on:
    `Number.prototype.toString` on whole numbers, `padStart`, `includes`,
    `startsWith`, `replace` with a string pattern, `substring(0, n)` and
    `Array.prototype.join`. Strings are sequences of characters; JavaScript
    counts UTF-16 code units, the model counts `char`s. */
module Text {
  import opened Values

  predicate IsDigit(c: char) {
    '0' <= c <= '9'
  }

  predicate AllDigits(s: string) {
    forall i :: 0 <= i < |s| ==> IsDigit(s[i])
  }

  function DigitChar(d: nat): (c: char)
    requires d < 10
    ensures IsDigit(c) && c as int - '0' as int == d
  {
    "0123456789"[d]
  }

  function DigitValue(c: char): nat
    requires IsDigit(c)
  {
    c as int - '0' as int
  }

  function Pow10(k: nat): (p: nat)
    ensures p >= 1
  {
    if k == 0 then 1 else 10 * Pow10(k - 1)
  }

  // ---------------------------------------------------------------------
  // Decimal rendering of whole numbers
  // ---------------------------------------------------------------------

  /** `n.toString()` for a non-negative whole number: its decimal digits,
      most significant first, with no leading zero. */
  function NatToString(n: nat): (s: string)
    ensures 1 <= |s|
    ensures AllDigits(s)
    ensures |s| > 1 ==> s[0] != '0'
    decreases n
  {
    if n < 10 then [DigitChar(n)] else NatToString(n / 10) + [DigitChar(n % 10)]
  }

  /** The number a string of decimal digits denotes. */
  function Value(s: string): nat
    requires AllDigits(s)
  {
    if s == [] then 0 else Value(s[..|s| - 1]) * 10 + DigitValue(s[|s| - 1])
  }

  /** `n.toString()` for a whole number of either sign. */
  function IntToString(i: int): (s: string)
    ensures i >= 0 ==> s == NatToString(i)
    ensures i < 0 ==> s == "-" + NatToString(-i)
  {
    if i < 0 then "-" + NatToString(-i) else NatToString(i)
  }

  /** Reading the digits back yields the number. */
  lemma {:induction false} ValueOfNatToString(n: nat)
    ensures Value(NatToString(n)) == n
    decreases n
  {
    var s := NatToString(n);
    if n >= 10 {
      ValueOfNatToString(n / 10);
      assert s[..|s| - 1] == NatToString(n / 10);
    }
  }

  /** The rendering has exactly as many characters as n has decimal digits. */
  lemma {:induction false} NatToStringLength(n: nat)
    ensures n < Pow10(|NatToString(n)|)
    ensures n >= 1 ==> Pow10(|NatToString(n)| - 1) <= n
    decreases n
  {
    if n >= 10 {
      NatToStringLength(n / 10);
    }
  }

  lemma NatToStringInjective(a: nat, b: nat)
    ensures NatToString(a) == NatToString(b) ==> a == b
  {
    ValueOfNatToString(a);
    ValueOfNatToString(b);
  }

  /** Distinct whole numbers of either sign are rendered differently. */
  lemma IntToStringInjective(a: int, b: int)
    ensures IntToString(a) == IntToString(b) ==> a == b
  {
    var s, t := IntToString(a), IntToString(b);
    assert s[0] == '-' <==> a < 0;
    assert t[0] == '-' <==> b < 0;
    if s == t {
      if a < 0 {
        assert NatToString(-a) == s[1..] && NatToString(-b) == t[1..];
        NatToStringInjective(-a, -b);
      } else {
        NatToStringInjective(a, b);
      }
    }
  }

  /** The length of the run of digits a string starts with. */
  function DigitRun(s: string): nat
  {
    if s != [] && IsDigit(s[0]) then 1 + DigitRun(s[1..]) else 0
  }

  /** A digit string followed by a non-digit is read off as a whole. */
  lemma {:induction false} DigitRunOf(x: string, t: string)
    requires AllDigits(x) && |t| > 0 && !IsDigit(t[0])
    ensures DigitRun(x + t) == |x|
    decreases |x|
  {
    if x != [] {
      assert (x + t)[1..] == x[1..] + t;
      DigitRunOf(x[1..], t);
    } else {
      assert x + t == t;
    }
  }

  /** Two digit strings between the same text and the same non-digit
      continuation are equal. */
  lemma DigitsBetweenDetermined(head: string, x: string, y: string, tail: string)
    requires AllDigits(x) && AllDigits(y) && |tail| > 0 && !IsDigit(tail[0])
    requires head + x + tail == head + y + tail
    ensures x == y
  {
    var u, v := head + x + tail, head + y + tail;
    assert u[|head|..] == x + tail;
    assert v[|head|..] == y + tail;
    DigitRunOf(x, tail);
    DigitRunOf(y, tail);
    assert x == (x + tail)[..|x|];
    assert y == (y + tail)[..|y|];
  }

  /** Leading zeros do not change the value of a digit string. */
  lemma {:induction false} ValueIgnoresLeadingZero(s: string)
    requires AllDigits(s)
    ensures AllDigits(['0'] + s)
    ensures Value(['0'] + s) == Value(s)
    decreases |s|
  {
    var t := ['0'] + s;
    if s != [] {
      assert t[..|t| - 1] == ['0'] + s[..|s| - 1];
      ValueIgnoresLeadingZero(s[..|s| - 1]);
    }
  }

  // ---------------------------------------------------------------------
  // padStart
  // ---------------------------------------------------------------------

  /** `s.padStart(width, c)` with a one-character filler. */
  function PadStart(s: string, width: nat, c: char): (r: string)
    ensures |s| >= width ==> r == s
    ensures |s| < width ==> |r| == width
    ensures |r| >= |s| && r[|r| - |s|..] == s
    ensures forall i :: 0 <= i < |r| - |s| ==> r[i] == c
  {
    if |s| >= width then s else seq(width - |s|, _ => c) + s
  }

  // ---------------------------------------------------------------------
  // Searching
  // ---------------------------------------------------------------------

  predicate OccursAt(s: string, p: string, i: nat) {
    i + |p| <= |s| && s[i..i + |p|] == p
  }

  /** `s.startsWith(p)`. */
  predicate StartsWith(s: string, p: string) {
    OccursAt(s, p, 0)
  }

  /** The first occurrence of p in s at index k or later. */
  function IndexFrom(s: string, p: string, k: nat): (r: Option<nat>)
    ensures r.Some? ==> k <= r.value && OccursAt(s, p, r.value)
    ensures r.Some? ==> forall j :: k <= j < r.value ==> !OccursAt(s, p, j)
    ensures r.None? ==> forall j :: k <= j ==> !OccursAt(s, p, j)
    decreases |s| - k
  {
    if k + |p| > |s| then None
    else if OccursAt(s, p, k) then Some(k)
    else IndexFrom(s, p, k + 1)
  }

  /** `s.indexOf(p)`, with None for -1. */
  function IndexOf(s: string, p: string): (r: Option<nat>)
    ensures r.Some? ==> OccursAt(s, p, r.value)
    ensures r.Some? ==> forall j :: 0 <= j < r.value ==> !OccursAt(s, p, j)
    ensures r.None? <==> forall j :: !OccursAt(s, p, j)
  {
    IndexFrom(s, p, 0)
  }

  /** `s.includes(p)`. */
  predicate Includes(s: string, p: string) {
    IndexOf(s, p).Some?
  }

  /** `s.replace(p, rep)` with a string pattern: only the first occurrence
      is replaced, and a string without p is returned as it is. */
  function ReplaceFirst(s: string, p: string, rep: string): (r: string)
    ensures !Includes(s, p) ==> r == s
    ensures Includes(s, p) ==> |r| == |s| - |p| + |rep|
  {
    match IndexOf(s, p)
    case None => s
    case Some(i) => s[..i] + rep + s[i + |p|..]
  }

  /** Replacing a pattern that does not occur leaves the string alone. */
  lemma ReplaceFirstAbsent(s: string, p: string, rep: string)
    requires forall j :: !OccursAt(s, p, j)
    ensures ReplaceFirst(s, p, rep) == s
  {
  }

  /** Deleting a pattern the string starts with leaves the rest. */
  lemma ReplaceFirstPrefix(p: string, rest: string)
    ensures ReplaceFirst(p + rest, p, "") == rest
  {
    assert OccursAt(p + rest, p, 0);
  }

  /** The replacement happens at the first occurrence and nowhere else. */
  lemma ReplaceFirstSplits(s: string, p: string, rep: string)
    requires Includes(s, p)
    ensures exists i ::
              && 0 <= i && i + |p| <= |s|
              && OccursAt(s, p, i)
              && (forall j :: 0 <= j < i ==> !OccursAt(s, p, j))
              && ReplaceFirst(s, p, rep) == s[..i] + rep + s[i + |p|..]
  {
    var i := IndexOf(s, p).value;
    assert OccursAt(s, p, i);
  }

  // ---------------------------------------------------------------------
  // substring and join
  // ---------------------------------------------------------------------

  /** `s.substring(0, n)`. */
  function Prefix(s: string, n: nat): (r: string)
    ensures |r| <= n && |r| <= |s|
    ensures r == s[..|r|]
    ensures |s| <= n ==> r == s
    ensures |s| > n ==> |r| == n
  {
    if |s| <= n then s else s[..n]
  }

  /** The combined length of the pieces. */
  function TotalLength(xs: seq<string>): nat
  {
    if xs == [] then 0 else |xs[0]| + TotalLength(xs[1..])
  }

  /** Moving a separator and a piece out of the right-hand group. */
  lemma Regroup(p: string, sep: string, a: string, x: string)
    ensures p + sep + (a + sep + x) == (p + sep + a) + sep + x
  {
  }

  /** One more gap adds one more separator. */
  lemma MulStep(n: int, k: int)
    ensures n * k == (n - 1) * k + k
  {
  }

  /** `xs.join(sep)`: the pieces in order with one separator between each
      neighbouring pair and none at the ends. */
  function Join(xs: seq<string>, sep: string): (r: string)
    ensures xs == [] ==> r == ""
    ensures xs != [] ==> |r| == TotalLength(xs) + (|xs| - 1) * |sep|
    ensures xs != [] ==> r[..|xs[0]|] == xs[0]
    ensures xs != [] ==> |xs[|xs| - 1]| <= |r| && r[|r| - |xs[|xs| - 1]|..] == xs[|xs| - 1]
  {
    if xs == [] then ""
    else if |xs| == 1 then xs[0]
    else
      var rest := Join(xs[1..], sep);
      var r := xs[0] + sep + rest;
      MulStep(|xs| - 1, |sep|);
      assert r[..|xs[0]|] == xs[0];
      assert r[|r| - |xs[|xs| - 1]|..] == rest[|rest| - |xs[|xs| - 1]|..];
      r
  }

  /** Appending a piece to a non-empty list appends one separator and that
      piece to the joined text, so every piece sits between its
      neighbours' separators. */
  lemma {:induction false} JoinSnoc(xs: seq<string>, x: string, sep: string)
    requires xs != []
    ensures Join(xs + [x], sep) == Join(xs, sep) + sep + x
    decreases |xs|
  {
    var ys := xs + [x];
    if |xs| == 1 {
      assert ys[1..] == [x];
    } else {
      assert ys[0] == xs[0] && ys[1..] == xs[1..] + [x];
      JoinSnoc(xs[1..], x, sep);
      var a := Join(xs[1..], sep);
      assert Join(ys[1..], sep) == a + sep + x;
      assert Join(ys, sep) == xs[0] + sep + (a + sep + x);
      assert Join(xs, sep) == xs[0] + sep + a;
      Regroup(xs[0], sep, a, x);
    }
  }
}

=== FILE: types.dfy ===
/** The records of the two content files (src/types/index.ts). Field names
    follow the JSON keys, in camel case; `type` (a reserved word here) is
    called `role`. */
module Types {
  import opened Values

  datatype Socials = Socials(
    github: Option<string>,
    linkedin: Option<string>,
    instagram: Option<string>,
    facebook: Option<string>,
    twitter: Option<string>,
    website: Option<string>)

  datatype Team = Team(id: string, name: string, year: int)

  datatype Member = Member(
    id: string,
    name: string,
    role: string,
    title: Option<string>,
    department: Option<string>,
    email: string,
    photo: string,
    year: int,
    memberYear: int,
    teamId: string,
    socials: Option<Socials>,
    collegeYear: Option<int>)

  /** The three lifecycle states an event may be in. */
  datatype Status = Upcoming | Past | Running

  datatype Event = Event(
    id: string,
    title: string,
    date: string,
    time: string,
    location: string,
    description: string,
    image: string,
    status: Status,
    registrationLink: Option<string>,
    tags: Option<seq<string>>,
    gallery: Option<seq<string>>)

  datatype TeamData = TeamData(teams: seq<Team>, members: seq<Member>)

  datatype EventData = EventData(events: seq<Event>)

  /** What a page knows about its content file: the fetch is still pending,
      it failed (network or JSON error), or it produced the document. */
  datatype Load<T> = Loading | Failed | Loaded(data: T)

  /** The string the JSON file carries for a status. */
  function StatusName(s: Status): (name: string)
    ensures name == "upcoming" <==> s == Upcoming
    ensures name == "past" <==> s == Past
    ensures name == "running" <==> s == Running
  {
    match s
    case Upcoming => "upcoming"
    case Past => "past"
    case Running => "running"
  }

  /** Distinct statuses are spelled differently, so comparing the strings
      (as the components do) is comparing the statuses. */
  lemma StatusNameInjective(a: Status, b: Status)
    ensures StatusName(a) == StatusName(b) <==> a == b
  {
  }

  /** The social networks a member may list, in the order the Person
      schema enumerates them. */
  datatype Network = GitHub | LinkedIn | Instagram | Facebook | Twitter | Website

  function NetworkRank(n: Network): nat
  {
    match n
    case GitHub => 0
    case LinkedIn => 1
    case Instagram => 2
    case Facebook => 3
    case Twitter => 4
    case Website => 5
  }

  function Link(s: Socials, n: Network): Option<string>
  {
    match n
    case GitHub => s.github
    case LinkedIn => s.linkedin
    case Instagram => s.instagram
    case Facebook => s.facebook
    case Twitter => s.twitter
    case Website => s.website
  }

  datatype SocialLink = SocialLink(network: Network, url: string)

  /** The network at a given place of the Person schema's list. */
  function NetworkAt(k: nat): (n: Network)
    requires k < 6
    ensures NetworkRank(n) == k
  {
    [GitHub, LinkedIn, Instagram, Facebook, Twitter, Website][k]
  }

  /** The non-empty links of s for the networks ranked k or later, in rank
      order. */
  function LinksFrom(s: Socials, k: nat): (r: seq<SocialLink>)
    requires k <= 6
    ensures forall i, j :: 0 <= i < j < |r| ==> NetworkRank(r[i].network) < NetworkRank(r[j].network)
    ensures forall i :: 0 <= i < |r| ==> k <= NetworkRank(r[i].network)
    ensures forall i :: 0 <= i < |r| ==> Link(s, r[i].network) == Some(r[i].url) && r[i].url != ""
    ensures forall n :: k <= NetworkRank(n) && Present(Link(s, n)) ==> SocialLink(n, Link(s, n).value) in r
    decreases 6 - k
  {
    if k == 6 then []
    else
      var n := NetworkAt(k);
      var rest := LinksFrom(s, k + 1);
      if Present(Link(s, n)) then [SocialLink(n, Link(s, n).value)] + rest else rest
  }

  /** The member's non-empty social links, github first and website last. */
  function SocialLinks(socials: Option<Socials>): (r: seq<SocialLink>)
    ensures forall i, j :: 0 <= i < j < |r| ==> NetworkRank(r[i].network) < NetworkRank(r[j].network)
    ensures forall i :: 0 <= i < |r| ==> socials.Some? && Link(socials.value, r[i].network) == Some(r[i].url) && r[i].url != ""
    ensures forall n: Network :: socials.Some? && Present(Link(socials.value, n)) ==>
              SocialLink(n, Link(socials.value, n).value) in r
  {
    match socials
    case None => []
    case Some(s) =>
      LinksFrom(s, 0)
  }
}

=== FILE: values.dfy ===
/** Optional values as they arrive from the JSON content files, and the
    JavaScript truthiness tests the components apply to them. */
module Values {

  /** A field that may be missing from a JSON record. */
  datatype Option<+T> = None | Some(value: T)

  /** `x && ...` on an optional string: missing and "" are both falsy. */
  predicate Present(s: Option<string>) {
    s.Some? && s.value != ""
  }

  /** `x ? ... : ...` on an optional number: missing and 0 are both falsy
      (NaN never occurs in the content files and is not modelled). */
  predicate NonZero(n: Option<int>) {
    n.Some? && n.value != 0
  }

  /** `list?.length > 0`: the list is present and holds something. */
  predicate NonEmpty<T>(xs: Option<seq<T>>) {
    xs.Some? && |xs.value| > 0
  }

  /** `list?.map(...)`: a missing list renders nothing. */
  function OrEmpty<T>(xs: Option<seq<T>>): (r: seq<T>)
    ensures xs.Some? ==> r == xs.value
    ensures xs.None? ==> r == []
  {
    match xs
    case Some(v) => v
    case None => []
  }
}
